=== FILE: README.md ===
# Tile-map collision resolver

A Dafny model of the collision core of MonoGame-TileBasedCollisions. The
world is a grid of 16-pixel tiles, each holding a small integer code:
- 0 is empty;
- 1 is a solid block;
- 2 to 7 are slopes, with 3, 6 and 7 mirrored horizontally;
- 8 is a one-way platform.

A 16×16 actor moves through that grid. Every frame, `Player.Update` performs
these steps in order:
1. It turns input and gravity into a desired velocity.
2. It carries the fractional part of the velocity from frame to frame in a
   sub-pixel remainder.
3. It runs four passes against the map:
   - a horizontal pass and a vertical pass, each of which sweeps a box in
     front of the actor and shortens the velocity at the first tile that
     blocks;
   - a ground check that sets the grounded and on-platform flags;
   - a slope pass that puts the actor's feet on the surface of a slope.

The model is split into modules that follow the program:

- `Geometry`: points and rectangles, MonoGame's `Rectangle.Intersects` and
  `MathHelper.Clamp`, and C#'s truncating `(int)` cast.
- `Text`: `String.Split` on one character and `int.TryParse`, which the
  level constructor uses.
- `Levels` (Level.cs): the grid, its parsing from comma-separated rows, and
  the classification of codes into slopes, orientations and edge heights.
- `Scan`: the nested early-exit loop that both axis passes share. The loop
  carries a single `bCollided` flag. A tile that overlaps the swept box but
  lets the actor through still leaves the flag set (a "graze"). When that
  happens on the last cell of a line, it ends the whole pass.
- `Collisions`: `HorizontalCollisions` and `VerticalCollisions`.
- `Surface`: `CheckForGround` and `CheckForSlope`.
- `Players` (Player.cs): the actor, its constructor and `Update`.

Integers are unbounded, velocities and remainders are exact reals, and the
frame time is fixed at 1/60 s, so `deltaTime * 60` is 1. Keyboard input is an
`Input` record of the keys a frame reads. The level is passed to each
operation instead of being stored in the actor.

Behaviour of the code that may surprise a reader, which the model keeps:
- Codes other than 0 to 8 block like solid tiles in both axis passes. They
  never count as ground.
- In the vertical pass, a slope stops only a rising actor whose top is at or
  below the slope tile's bottom.
- A ramp match in the slope pass leaves only the inner loop over columns. The
  next row is still scanned.
- An actor falling onto a one-row floor from above the map ends at `y == 0`
  but not grounded. The ground check looks at the row under the feet, which
  is clamped back onto the floor's own row. `FallOntoTopRow` states this case.
- Reset restores only the position. It happens before the drop-through nudge,
  so reset and drop on a platform together leave the actor one pixel below
  its start.
- After a slope snap the actor may sit up to one tile above the map. The axis
  clamps run before the slope pass.

## Model

| member | source | states |
|---|---|---|
| Geometry.Clamp | TileBasedCollisions/src/Player.cs:110-113 | The result lies in [min, max] when that range is non-empty, is the value itself inside it, and is min when the range is empty, since the upper bound is applied first |
| Geometry.Intersects | TileBasedCollisions/src/Player.cs:137 | Boxes that only touch along an edge, on either axis, do not intersect |
| Geometry.IntersectsSharePixel | TileBasedCollisions/src/Player.cs:204 | Boxes sharing a pixel intersect, and boxes of positive size intersect only when they share a pixel |
| Geometry.ClampMonotone | TileBasedCollisions/src/Player.cs:110-111 | Clamping both ends of a scan range to the map keeps them in order |
| Geometry.Trunc | TileBasedCollisions/src/Player.cs:58-59 | The `(int)` cast rounds toward zero: the result is within one of the value, on the value's side of zero |
| Geometry.TruncShift | TileBasedCollisions/src/Player.cs:57-60 | Removing a whole number that keeps the sign removes exactly that number from the truncated value |
| Geometry.TruncDiv | TileBasedCollisions/src/Player.cs:351 | Division of integers rounding toward zero: the quotient times the divisor is within one divisor of the dividend, on its side of zero |
| Text.Split | TileBasedCollisions/src/Level.cs:23 | Splitting always yields at least one token, no token contains the separator, and joining the tokens with it gives the text back |
| Text.SplitJoin | TileBasedCollisions/src/Level.cs:23 | Splitting the join of separator-free parts gives back exactly those parts |
| Text.TryParseInt | TileBasedCollisions/src/Level.cs:27 | The value stored for any token is a 32-bit integer |
| Text.ParseShowInt | TileBasedCollisions/src/Level.cs:27 | The bare decimal text of any integer reads back as that integer when it fits in 32 bits, and as 0 otherwise |
| Text.TryParseOutOfRange | TileBasedCollisions/src/Level.cs:27 | A numeral outside the 32-bit range is rejected and stores 0 |
| Text.TryParseRejectsStray | TileBasedCollisions/src/Level.cs:27 | A character that is not a digit, white space or a sign anywhere in the token makes it malformed, storing 0 |
| Text.TryParseNeedsDigit | TileBasedCollisions/src/Level.cs:27 | A token without a single digit, such as an empty one or a lone sign, stores 0 |
| Text.TryParseShowInt | TileBasedCollisions/src/Level.cs:27 | Parsing the decimal text of any 32-bit integer gives that integer |
| Text.TryParseIgnoresWhite | TileBasedCollisions/src/Level.cs:27 | White space before and after a token does not change its parsed value |
| Levels.Level.Tile | TileBasedCollisions/src/Level.cs:10-12 | The indexer takes the column first and the row second, and reads a code stored in that row |
| Levels.ParseRow | TileBasedCollisions/src/Level.cs:23-28 | A parsed row always has exactly the declared number of columns |
| Levels.FromRows | TileBasedCollisions/src/Level.cs:16-30 | The map has the given width and one row per text row; each cell is the parsed comma token at its column, or 0 when the row has fewer tokens |
| Levels.ParseRender | TileBasedCollisions/src/Level.cs:16-30 | Writing a map of 32-bit codes as comma-separated rows and constructing a level from them gives the same map |
| Levels.IsTileXFlipped | TileBasedCollisions/src/Level.cs:86-89 | Every flipped code is a slope |
| Levels.IsSlopeTile | TileBasedCollisions/src/Level.cs:91-94 | No slope code is empty space, a solid block or a platform |
| Levels.SpriteOffset | TileBasedCollisions/src/Level.cs:50-84 | Sprite offsets are whole tiles from 0 to 4; slopes draw from tiles 1 to 3, only the platform from tile 4, and every other code from tile 0 |
| Levels.GetSlopeYPositions | TileBasedCollisions/src/Level.cs:96-115 | Non-slope codes get (0, 0); every slope has two different edge heights, measured down from the tile's top and within a tile; the left edge lies deeper than the right exactly when the code is not flipped, so unflipped ramps rise to the right and flipped ones to the left |
| Levels.FlippedCodesAreSlopes | TileBasedCollisions/src/Level.cs:86-94 | The flipped codes are 3, 6 and 7, all of them slopes, and the slopes are exactly 2 to 7 |
| Levels.MirrorPairs | TileBasedCollisions/src/Level.cs:50-115 | The slopes come in pairs 2/3, 4/7 and 5/6 that share a sprite, have opposite flip flags and swapped edge heights |
| Scan.ScanLine | TileBasedCollisions/src/Player.cs:123-154 | The inner loop stops at the first Hit; if it runs through, the flag it leaves is set exactly when the last cell was a graze |
| Scan.Sweep | TileBasedCollisions/src/Player.cs:121-158 | The pass is clear only when every line is passable; otherwise it stops at the first line that is not: a graze-ended line halts it and a line with a Hit blocks at that line's first Hit |
| Scan.SweepFirstStop | TileBasedCollisions/src/Player.cs:118-158 | The outcome is decided by the first non-passable line alone, whatever follows it |
| Scan.GrazeShadowsLaterHit | TileBasedCollisions/src/Player.cs:137-157 | A line ending on a graze stops the pass before a Hit in the next line; the same graze followed by a miss does not |
| Scan.BlockedIsFirstHit | TileBasedCollisions/src/Player.cs:121-157 | No cell scanned before the one the pass is blocked at is a Hit |
| Scan.FirstCellHits | TileBasedCollisions/src/Player.cs:147-157 | A Hit in the first cell scanned blocks there |
| Collisions.HorizontalSweptRect | TileBasedCollisions/src/Player.cs:99-102 | The swept strip is as wide as the move and as tall as the actor, and lies just beyond the leading side |
| Collisions.BottomRow | TileBasedCollisions/src/Player.cs:108-113 | The row is inside the map, and it is the row holding the actor's lowest pixel whenever that pixel is inside the map |
| Collisions.HorizontalWindow | TileBasedCollisions/src/Player.cs:105-113 | The scanned columns and rows are inside the map, and the far column is not behind the close one in the direction of travel |
| Collisions.HorizontalVerdict | TileBasedCollisions/src/Player.cs:126-153 | Empty tiles and platforms never stop the actor, nor does the bottom row while on a slope; other tiles count only when they overlap the strip; a slope blocks only on its vertical side and is otherwise passed with the flag set |
| Collisions.HorizontalLines | TileBasedCollisions/src/Player.cs:121-123 | One line per scanned column, each with one verdict per scanned row |
| Collisions.HorizontalCell | TileBasedCollisions/src/Player.cs:121-130 | Cell k of the i-th scanned line is the verdict for the i-th column from the near side and the k-th row up from the bottom one, a cell inside the map and the window |
| Collisions.HorizontalCellAt | TileBasedCollisions/src/Player.cs:121-130 | Every cell of the window has its verdict in the line of its column, at its distance from the bottom row |
| Collisions.HorizontalContact | TileBasedCollisions/src/Player.cs:118-158 | A contact exists only when moving, and exactly when the scan is blocked; it is the cell at which the scan stopped |
| Collisions.HorizontalContactHits | TileBasedCollisions/src/Player.cs:126-153 | The contact is a tile of the map inside the scan window that blocks, and the swept strip overlaps it |
| Collisions.HorizontalCollisions | TileBasedCollisions/src/Player.cs:94-159 | The velocity is unchanged exactly when there is no contact; otherwise the leading side ends flush with the contact tile's near face, never beyond the requested move and less than a tile backwards |
| Collisions.HorizontalWindowCovers | TileBasedCollisions/src/Player.cs:99-113 | Every tile of the map that the swept strip overlaps lies in the scan window, so the clamps drop nothing the actor could run into |
| Collisions.HorizontalScannedBefore | TileBasedCollisions/src/Player.cs:120-158 | No cell of the window scanned before the contact, in a nearer column or lower in the contact's column, blocks |
| Collisions.HorizontalNearest | TileBasedCollisions/src/Player.cs:99-158 | No tile of the map in a nearer column, and none lower in the contact's column, blocks: the contact is the nearest blocking tile |
| Collisions.HorizontalClear | TileBasedCollisions/src/Player.cs:121-153 | When no cell in or before a column blocks, no Hit appears in the lines scanned up to it |
| Collisions.HorizontalGrazeStops | TileBasedCollisions/src/Player.cs:137-157 | A column with no blocking cell whose top cell is a passed slope side leaves the velocity unchanged, whatever lies beyond |
| Collisions.VerticalSweptRect | TileBasedCollisions/src/Player.cs:166-169 | The swept strip is as tall as the move and as wide as the actor, and lies just beyond the leading side |
| Collisions.VerticalWindow | TileBasedCollisions/src/Player.cs:172-180 | The scanned rows and columns are inside the map, and the far row is not behind the close one in the direction of travel |
| Collisions.VerticalVerdict | TileBasedCollisions/src/Player.cs:193-223 | Empty tiles never stop the actor; a slope stops only a rising actor whose top is at or below the slope's bottom; a platform blocks only a falling actor standing above it and is otherwise passed with the flag set |
| Collisions.VerticalLines | TileBasedCollisions/src/Player.cs:188-190 | One line per scanned row, each with one verdict per scanned column |
| Collisions.VerticalCell | TileBasedCollisions/src/Player.cs:188-195 | Cell k of the i-th scanned line is the verdict for the i-th row from the near side and the k-th column from the left one, a cell inside the map and the window |
| Collisions.VerticalCellAt | TileBasedCollisions/src/Player.cs:188-195 | Every cell of the window has its verdict in the line of its row, at its distance from the left column |
| Collisions.VerticalContact | TileBasedCollisions/src/Player.cs:185-228 | A contact exists only when moving, and exactly when the scan is blocked; it is the cell at which the scan stopped |
| Collisions.VerticalContactHits | TileBasedCollisions/src/Player.cs:193-223 | The contact is a tile of the map inside the scan window that blocks, and the swept strip overlaps it |
| Collisions.VerticalCollisions | TileBasedCollisions/src/Player.cs:161-229 | The velocity is unchanged exactly when there is no contact; otherwise the leading side ends flush with the contact tile's near face, never beyond the requested move and less than a tile backwards |
| Collisions.VerticalWindowCovers | TileBasedCollisions/src/Player.cs:166-180 | Every tile of the map that the swept strip overlaps lies in the scan window, so the clamps drop nothing the actor could run into |
| Collisions.VerticalScannedBefore | TileBasedCollisions/src/Player.cs:187-228 | No cell of the window scanned before the contact, in a nearer row or left of it in the contact's row, blocks |
| Collisions.VerticalNearest | TileBasedCollisions/src/Player.cs:166-228 | No tile of the map in a nearer row, and none to the left in the contact's row, blocks: the contact is the nearest blocking tile |
| Collisions.VerticalClear | TileBasedCollisions/src/Player.cs:188-223 | When no cell in or before a row blocks, no Hit appears in the lines scanned up to it |
| Collisions.VerticalGrazeStops | TileBasedCollisions/src/Player.cs:204-227 | A row with no blocking cell whose rightmost cell is a passed platform leaves the velocity unchanged, whatever lies beyond |
| Surface.ColumnSpan | TileBasedCollisions/src/Player.cs:240-245 | The columns under the actor are a non-empty range inside the map |
| Surface.GroundRow | TileBasedCollisions/src/Player.cs:242-246 | The row below the feet is inside the map |
| Surface.GroundScan | TileBasedCollisions/src/Player.cs:252-287 | Y never changes; unless the feet are flush with the row's top nothing changes; when they are, grounded means a solid tile or platform is in the columns, and on-platform means a platform is there and no solid tile is |
| Surface.CheckForGround | TileBasedCollisions/src/Player.cs:231-288 | Rising clears both flags; otherwise the actor is grounded exactly when its feet are flush with the row below and a solid tile or platform is under it, and on a platform exactly when a platform and no solid tile is; Y is unchanged |
| Surface.RelativeX | TileBasedCollisions/src/Player.cs:324 | The actor's centre is within a tile's width of its left edge exactly when the centre lies in that tile's column |
| Surface.SlopeZone | TileBasedCollisions/src/Player.cs:324-330 | A slope counts when the actor's centre is within half an actor of the tile; the ramp is over the tile itself, and each plateau lies beyond the edge it is named for |
| Surface.LerpHeight | TileBasedCollisions/src/Player.cs:351 | The height is the exact interpolation rounded toward zero: less than a pixel off, on the side of zero |
| Surface.LerpBetween | TileBasedCollisions/src/Player.cs:351 | The interpolated height meets the edge heights at both ends of the tile and stays between them |
| Surface.SurfaceHeight | TileBasedCollisions/src/Player.cs:333-351 | The feet height over a slope is the ramp extended flat past both edges: it stays between the two edge heights, and the plateaus hold the smaller and the larger depth |
| Surface.Land | TileBasedCollisions/src/Player.cs:331-360 | A catching slope puts the feet on its surface, within the tile's height, grounds the actor and sets the slope flag exactly over the ramp |
| Surface.SlopeRowScan | TileBasedCollisions/src/Player.cs:314-363 | Across one row grounded and the slope flag are never cleared, the slope flag keeps implying grounded, and a moved actor has its feet within that row |
| Surface.SlopeRowScanSound | TileBasedCollisions/src/Player.cs:314-363 | Across one row the stance is unchanged or the actor is grounded with its feet on a slope of that row; the slope flag is newly set only over a ramp of that row |
| Surface.SlopeRowScanNoMatch | TileBasedCollisions/src/Player.cs:321-326 | A row in which no slope catches the actor leaves the stance unchanged |
| Surface.SlopeRowScanGrounds | TileBasedCollisions/src/Player.cs:321-359 | Any slope of the row that catches the actor grounds it |
| Surface.SlopeRowScanRamp | TileBasedCollisions/src/Player.cs:346-362 | When the first slope of the row to catch the actor has its ramp under the centre, the loop ends there with the actor grounded, on a slope, its feet on that ramp |
| Surface.SlopeRowsScan | TileBasedCollisions/src/Player.cs:312-364 | Across the rows grounded and the slope flag are never cleared, and a moved actor has its feet within the scanned rows |
| Surface.SlopeRowsScanSound | TileBasedCollisions/src/Player.cs:312-364 | Across the rows the stance is unchanged or the actor is grounded with its feet on a scanned slope; the slope flag is newly set only over a scanned ramp |
| Surface.SlopeRowsScanNoMatch | TileBasedCollisions/src/Player.cs:312-326 | Rows in which no slope catches the actor leave the stance unchanged |
| Surface.SlopeRowsScanGrounds | TileBasedCollisions/src/Player.cs:312-364 | A slope in any scanned row that catches the actor at its starting height grounds it |
| Surface.SlopeRowsScanRamp | TileBasedCollisions/src/Player.cs:312-364 | When the first slope to catch the actor, row by row and left to right, has its ramp under the centre, the actor ends grounded and on a slope |
| Surface.SlopeRows | TileBasedCollisions/src/Player.cs:300-306 | The two scanned rows are inside the map and in order |
| Surface.CheckForSlope | TileBasedCollisions/src/Player.cs:290-365 | Rising clears only the slope flag; grounded is never cleared, the slope flag implies grounded, and a moved actor has its feet within the two scanned rows |
| Surface.CheckForSlopeSound | TileBasedCollisions/src/Player.cs:290-365 | Either nothing but the slope flag changes, or the actor is grounded with its feet on a scanned slope tile; the slope flag is set only over a scanned ramp |
| Surface.CheckForSlopeGrounds | TileBasedCollisions/src/Player.cs:296-364 | While not rising, the actor ends grounded exactly when it was grounded or some scanned slope catches it at its current height; when none does, only the slope flag is cleared |
| Surface.CheckForSlopeRamp | TileBasedCollisions/src/Player.cs:296-364 | While not rising, when the first slope in scan order to catch the actor has its ramp under the centre, the slope flag is set |
| Surface.SlopeSnapExample | TileBasedCollisions/src/Player.cs:290-365 | An actor standing in the middle of a full-height slope is lifted half a tile onto the ramp, grounded and on a slope |
| Surface.OnSurfaceWithinTile | TileBasedCollisions/src/Player.cs:331-357 | Feet put on a slope lie within that slope tile's height |
| Surface.MidpointOfSteepSlope | TileBasedCollisions/src/Player.cs:351 | Halfway along a full-height slope the feet are half a tile down |
| Players.NewPlayer | TileBasedCollisions/src/Player.cs:11-30 | A new actor starts where it is constructed, at rest with no remainder, airborne, at speed 2 |
| Players.Controls | TileBasedCollisions/src/Player.cs:34-55 | Reset returns to the start and drop nudges one pixel only off a platform; speed changes by one step per key and never drops below a quarter; a jump starts only from the ground, gravity pulls only in the air |
| Players.SplitAxis | TileBasedCollisions/src/Player.cs:56-60 | The whole step and the new remainder add up to the carried remainder plus the velocity, and the remainder is under one pixel with the total's sign |
| Players.Travel | TileBasedCollisions/src/Player.cs:57 | The exact distance covered at a constant velocity has that velocity's sign |
| Players.TravelIsProduct | TileBasedCollisions/src/Player.cs:57 | Summing a constant velocity frame by frame covers n times it |
| Players.CarryStep | TileBasedCollisions/src/Player.cs:57-60 | One frame's whole step is what the truncated total distance gains, and the remainder is the total's fraction |
| Players.DriftTruncates | TileBasedCollisions/src/Player.cs:56-60 | After n frames at a constant velocity the whole steps add up to the exact distance rounded toward zero, with nothing lost in the remainder |
| Players.HalfPixelTwoFrames | TileBasedCollisions/src/Player.cs:56-60 | Half a pixel per frame moves one pixel in two frames |
| Players.MoveX | TileBasedCollisions/src/Player.cs:61-66 | After the horizontal pass the actor is inside the map's width, and exactly moved by the resolved velocity when that stays inside |
| Players.MoveY | TileBasedCollisions/src/Player.cs:67-72 | After the vertical pass the actor is inside the map's height, and exactly moved by the resolved velocity when that stays inside |
| Players.Update | TileBasedCollisions/src/Player.cs:32-77 | One frame keeps the start position, a speed of at least a quarter, X inside the map, whole-pixel velocities and remainders under a pixel; on-platform and on-slope imply grounded, and a rising actor is never grounded |
| Players.UpdateStaysNearMap | TileBasedCollisions/src/Player.cs:62-76 | For any velocity the actor ends inside the map, except that a slope snap can lift it at most one tile above the top |
| Players.FallStopsOnFloor | TileBasedCollisions/src/Player.cs:161-229 | Falling 25 pixels from 20 above a one-row solid floor, the vertical pass cuts the move to 4 pixels |
| Players.FallFindsNoGround | TileBasedCollisions/src/Player.cs:231-365 | Standing inside the only row of a one-row floor, neither the ground check nor the slope check grounds the actor |
| Players.FallOntoTopRow | TileBasedCollisions/src/Player.cs:32-76 | An actor falling onto a one-row solid floor from above the map ends at the top of the map with a four-pixel velocity, not grounded |

## Left out

- Drawing is not part of this model: `Level.DrawCollisionMap`, `Player.Draw` and the debug text at Player.cs lines 78-83. Of `GetTileSourceRect`, only the sprite X offset is kept, as `SpriteOffset`, to state which slopes share a picture.
- DebugDraw.cs, Game.cs, Program.cs and Input.cs are not part of this model. Keyboard polling becomes the `Input` record, and the level an actor plays on is passed to each operation.
- `deltaTime` is fixed at 1/60 s. Frame-rate scaling of velocity and gravity is not modelled.
- Floating point is not modelled. Velocities and remainders are exact reals, and positions are exact integers.
- Players.Controls: move speed is an unbounded count of quarter pixels. The `float.MaxValue` cap of line 38 never binds for such counts, and float rounding of huge speeds is not modelled.
- Geometry.IntersectsSharePixel: for a box with no area the converse does not hold, since `Rectangle.Intersects` can report an overlap for a zero-width box. The axis passes never build such a box, because they return early on a zero velocity.
- Players.Update: positions are unbounded integers, so 32-bit overflow of `Point` fields is not modelled.
- Text.TryParseInt: only ASCII digits, an optional leading sign and the white space U+0009 to U+000D and U+0020 are recognised. Culture-dependent signs and trailing NUL characters, which .NET also accepts, are not modelled.
- Levels.FromRows: the constructor's exceptions are not modelled. The column count is a `nat`, so the `OverflowException` a negative count raises at Level.cs line 18 cannot occur. The rows are a sequence of strings, so a null array and the `NullReferenceException` a null element raises at Level.cs line 23 cannot occur either.
- Collisions.HorizontalCollisions, Collisions.VerticalCollisions, Surface.CheckForGround and Surface.CheckForSlope require a map with at least one column and one row (`Playable`). On an empty map the clamped index is still 0 and the array access in Player.cs throws.

=== FILE: collisions.dfy ===
/** The two axis passes of Player.cs (HorizontalCollisions and
    VerticalCollisions): each builds the box the actor sweeps on one axis this
    frame, scans the tiles it may touch nearest first, and shortens the
    velocity so that the actor stops flush against the first tile that blocks. */
module Collisions {
  import opened Wrappers
  import opened Geometry
  import opened Levels
  import opened Scan

  /** The actor's box is one tile wide and one tile high. */
  const ActorWidth: int := TileSize
  const ActorHeight: int := TileSize

  datatype Cell = Cell(column: int, row: int)

  function TileRect(column: int, row: int): Rect
  {
    Rect(column * TileSize, row * TileSize, TileSize, TileSize)
  }

  /** The clamped index ranges a pass scans: lines `close` to `far` along the
      axis of travel, and `low` to `high` across it. */
  datatype Window = Window(close: int, far: int, low: int, high: int)

  /** The number of lines from `close` to `far`, both included. */
  function LineCount(w: Window): nat
  {
    Abs(w.far - w.close) + 1
  }

  /** The index of the `i`-th line scanned, travelling forward (towards
      larger indices) or backward. */
  function LineAt(w: Window, forward: bool, i: int): int
  {
    if forward then w.close + i else w.close - i
  }

  /** Across the horizontal pass's axis, the `k`-th row counted up from the
      bottom one. */
  function RowFromBottom(w: Window, k: int): int
  {
    w.high - k
  }

  /** Across the vertical pass's axis, the `k`-th column counted from the
      left one. */
  function ColumnFromLeft(w: Window, k: int): int
  {
    w.low + k
  }

  /** How many lines were scanned before `line`: its distance from `close`
      in the direction of travel. */
  function Offset(w: Window, forward: bool, line: int): int
  {
    if forward then line - w.close else w.close - line
  }

  /** The window lies inside a map with `lines` lines along the axis of
      travel and `cells` cells across it, and runs from `close` to `far` in the
      direction of travel. */
  predicate Fits(w: Window, forward: bool, lines: int, cells: int)
  {
    && 0 <= w.close < lines && 0 <= w.far < lines
    && 0 <= w.low <= w.high < cells
    && (forward ==> w.close <= w.far) && (!forward ==> w.far <= w.close)
  }

  /** The `i`-th line scanned lies between the close and the far line, and
      `i` lines were scanned before it. */
  lemma LineInWindow(w: Window, forward: bool, i: int)
    requires forward ==> w.close <= w.far
    requires !forward ==> w.far <= w.close
    requires 0 <= i < LineCount(w)
    ensures forward ==> w.close <= LineAt(w, forward, i) <= w.far
    ensures !forward ==> w.far <= LineAt(w, forward, i) <= w.close
    ensures Offset(w, forward, LineAt(w, forward, i)) == i
  {
  }

  lemma DivMonotone(a: int, b: int)
    requires a <= b
    ensures a / TileSize <= b / TileSize
  {
  }

  // =======================================================================
  // Horizontal pass

  /** The strip of width |vx| in front of the actor's leading side, as tall
      as the actor. */
  function HorizontalSweptRect(pos: Point, vx: int): (box: Rect)
    ensures box.width == Abs(vx) && box.y == pos.y && box.height == ActorHeight
    ensures vx > 0 ==> box.x == pos.x + ActorWidth
    ensures vx < 0 ==> box.Right() == pos.x
  {
    var dist := Abs(vx);
    Rect(if vx > 0 then pos.x + ActorWidth else pos.x - dist, pos.y, dist, ActorHeight)
  }

  /** The bottom row the actor covers, clamped to the map. The horizontal
      pass ignores it while the actor stands on a slope. */
  function BottomRow(lv: Level, y: int): (row: int)
    requires Playable(lv)
    ensures 0 <= row < lv.Height()
    ensures 0 <= y + ActorHeight - 1 < lv.Height() * TileSize ==>
              row * TileSize <= y + ActorHeight - 1 < row * TileSize + TileSize
  {
    Clamp((y + ActorHeight - 1) / TileSize, 0, lv.Height() - 1)
  }

  /** Columns from the one under the leading side to the one reached after the
      full move, and the rows covered by the actor, all clamped to the map. */
  function HorizontalWindow(lv: Level, pos: Point, vx: int): (w: Window)
    requires Playable(lv)
    ensures Fits(w, vx > 0, lv.Width(), lv.Height())
  {
    var dist := Abs(vx);
    var close := if vx > 0 then (pos.x + ActorWidth) / TileSize else pos.x / TileSize;
    var far := if vx > 0 then (pos.x + ActorWidth + dist) / TileSize else (pos.x - dist) / TileSize;
    var w := Window(Clamp(close, 0, lv.Width() - 1), Clamp(far, 0, lv.Width() - 1),
                    Clamp(pos.y / TileSize, 0, lv.Height() - 1),
                    BottomRow(lv, pos.y));
    DivMonotone(pos.y, pos.y + ActorHeight - 1);
    ClampMonotone(pos.y / TileSize, (pos.y + ActorHeight - 1) / TileSize, 0, lv.Height() - 1);
    if vx > 0 then
      DivMonotone(pos.x + ActorWidth, pos.x + ActorWidth + dist);
      ClampMonotone(close, far, 0, lv.Width() - 1);
      w
    else
      DivMonotone(pos.x - dist, pos.x);
      ClampMonotone(far, close, 0, lv.Width() - 1);
      w
  }

  /** A cell inside the horizontal pass's window. */
  ghost predicate InHorizontalWindow(lv: Level, pos: Point, vx: int, column: int, row: int)
    requires Playable(lv)
  {
    var w := HorizontalWindow(lv, pos, vx);
    && 0 <= Offset(w, vx > 0, column) <= Offset(w, vx > 0, w.far)
    && w.low <= row <= w.high
  }

  /** One iteration of the inner loop over rows (Player.cs, lines 126-153).
      The bottom row is ignored while the actor stands on a slope; empty
      tiles and platforms never stop horizontal motion; a slope stops it only
      on its vertical side (the right-hand side of a flipped slope is the
      ramp, so a flipped slope blocks an actor moving right). */
  function HorizontalVerdict(lv: Level, pos: Point, onSlope: bool, vx: int, column: int, row: int): (v: Verdict)
    requires Playable(lv)
    requires 0 <= column < lv.Width() && 0 <= row < lv.Height()
    ensures var code := lv.Tile(column, row);
      && (code == Void || code == Platform ==> v == Miss)
      && (onSlope && row == BottomRow(lv, pos.y) ==> v == Miss)
      && (v != Miss <==>
            && !(onSlope && row == BottomRow(lv, pos.y))
            && code != Void && code != Platform
            && Intersects(HorizontalSweptRect(pos, vx), TileRect(column, row)))
      && (v == Graze ==> IsSlopeTile(code))
      && (v != Miss && IsSlopeTile(code) ==> (v == Hit <==> (vx > 0 <==> IsTileXFlipped(code))))
  {
    var code := lv.Tile(column, row);
    if onSlope && row == BottomRow(lv, pos.y) then Miss
    else if code == Void || code == Platform then Miss
    else if !Intersects(HorizontalSweptRect(pos, vx), TileRect(column, row)) then Miss
    else if IsSlopeTile(code) && !(if vx > 0 then IsTileXFlipped(code) else !IsTileXFlipped(code)) then Graze
    else Hit
  }

  /** The verdicts for the `i`-th column scanned, rows from the bottom one
      up. */
  function HorizontalLine(lv: Level, pos: Point, onSlope: bool, vx: int, w: Window, i: int): (line: seq<Verdict>)
    requires Playable(lv) && Fits(w, vx > 0, lv.Width(), lv.Height())
    requires 0 <= i < LineCount(w)
    ensures |line| == w.high - w.low + 1
    ensures 0 <= LineAt(w, vx > 0, i) < lv.Width()
    ensures forall k :: 0 <= k < |line| ==>
      line[k] == HorizontalVerdict(lv, pos, onSlope, vx, LineAt(w, vx > 0, i), RowFromBottom(w, k))
  {
    var column := LineAt(w, vx > 0, i);
    LineInWindow(w, vx > 0, i);
    seq(w.high - w.low + 1, k requires 0 <= k < w.high - w.low + 1 =>
      HorizontalVerdict(lv, pos, onSlope, vx, column, RowFromBottom(w, k)))
  }

  /** The verdicts in scan order: columns nearest first, and within a column
      rows from the bottom one up. */
  function HorizontalLines(lv: Level, pos: Point, onSlope: bool, vx: int): (lines: seq<seq<Verdict>>)
    requires Playable(lv)
    ensures var w := HorizontalWindow(lv, pos, vx);
      && |lines| == LineCount(w)
      && forall i :: 0 <= i < |lines| ==> lines[i] == HorizontalLine(lv, pos, onSlope, vx, w, i)
  {
    var w := HorizontalWindow(lv, pos, vx);
    seq(LineCount(w), i requires 0 <= i < LineCount(w) => HorizontalLine(lv, pos, onSlope, vx, w, i))
  }

  /** The `i`-th column scanned and the `k`-th row counted up from the bottom
      one make a cell inside the map and the window. */
  lemma HorizontalPlace(lv: Level, pos: Point, vx: int, i: int, k: int)
    requires Playable(lv)
    requires 0 <= i < LineCount(HorizontalWindow(lv, pos, vx))
    requires 0 <= k <= HorizontalWindow(lv, pos, vx).high - HorizontalWindow(lv, pos, vx).low
    ensures var w := HorizontalWindow(lv, pos, vx);
      var column := LineAt(w, vx > 0, i);
      && 0 <= column < lv.Width() && 0 <= RowFromBottom(w, k) < lv.Height()
      && Offset(w, vx > 0, column) == i
      && InHorizontalWindow(lv, pos, vx, column, RowFromBottom(w, k))
  {
    LineInWindow(HorizontalWindow(lv, pos, vx), vx > 0, i);
  }

  /** Cell `k` of line `i` is the verdict for the `i`-th column scanned and
      the `k`-th row counted up from the bottom one. */
  lemma HorizontalCell(lv: Level, pos: Point, onSlope: bool, vx: int, i: int, k: int)
    requires Playable(lv)
    requires 0 <= i < LineCount(HorizontalWindow(lv, pos, vx))
    requires 0 <= k <= HorizontalWindow(lv, pos, vx).high - HorizontalWindow(lv, pos, vx).low
    ensures var w := HorizontalWindow(lv, pos, vx);
      var column := LineAt(w, vx > 0, i);
      && 0 <= column < lv.Width() && 0 <= RowFromBottom(w, k) < lv.Height()
      && Offset(w, vx > 0, column) == i
      && InHorizontalWindow(lv, pos, vx, column, RowFromBottom(w, k))
      && HorizontalLines(lv, pos, onSlope, vx)[i][k] == HorizontalVerdict(lv, pos, onSlope, vx, column, RowFromBottom(w, k))
  {
    var w := HorizontalWindow(lv, pos, vx);
    HorizontalPlace(lv, pos, vx, i, k);
    assert HorizontalLines(lv, pos, onSlope, vx)[i] == HorizontalLine(lv, pos, onSlope, vx, w, i);
  }

  /** The same correspondence seen from a cell of the window: its verdict
      is found in the line of its column, at its distance from the bottom row. */
  lemma HorizontalCellAt(lv: Level, pos: Point, onSlope: bool, vx: int, column: int, row: int)
    requires Playable(lv)
    requires 0 <= column < lv.Width() && 0 <= row < lv.Height()
    requires InHorizontalWindow(lv, pos, vx, column, row)
    ensures var w := HorizontalWindow(lv, pos, vx);
      var lines := HorizontalLines(lv, pos, onSlope, vx);
      var i := Offset(w, vx > 0, column);
      && 0 <= i < |lines| && 0 <= w.high - row < |lines[i]|
      && lines[i][w.high - row] == HorizontalVerdict(lv, pos, onSlope, vx, column, row)
  {
    var w := HorizontalWindow(lv, pos, vx);
    var i := Offset(w, vx > 0, column);
    assert LineAt(w, vx > 0, i) == column;
    assert RowFromBottom(w, w.high - row) == row;
    HorizontalCell(lv, pos, onSlope, vx, i, w.high - row);
  }

  /** The tile the horizontal pass stops against, if any. */
  function HorizontalContact(lv: Level, pos: Point, onSlope: bool, vx: int): (c: Option<Cell>)
    requires Playable(lv)
    ensures vx == 0 ==> c.None?
    ensures vx != 0 ==> (c.Some? <==> Sweep(HorizontalLines(lv, pos, onSlope, vx), 0).Blocked?)
    ensures c.Some? ==>
      var w := HorizontalWindow(lv, pos, vx);
      var b := Sweep(HorizontalLines(lv, pos, onSlope, vx), 0);
      b.Blocked? && c.value == Cell(LineAt(w, vx > 0, b.line), RowFromBottom(w, b.index))
  {
    if vx == 0 then None
    else
      var w := HorizontalWindow(lv, pos, vx);
      var b := Sweep(HorizontalLines(lv, pos, onSlope, vx), 0);
      if b.Blocked? then Some(Cell(LineAt(w, vx > 0, b.line), RowFromBottom(w, b.index))) else None
  }

  /** The contact is a blocking cell of the map inside the scan window, and
      the actor's swept strip overlaps it. */
  lemma HorizontalContactHits(lv: Level, pos: Point, onSlope: bool, vx: int)
    requires Playable(lv)
    requires HorizontalContact(lv, pos, onSlope, vx).Some?
    ensures var c := HorizontalContact(lv, pos, onSlope, vx).value;
      && 0 <= c.column < lv.Width() && 0 <= c.row < lv.Height()
      && InHorizontalWindow(lv, pos, vx, c.column, c.row)
      && HorizontalVerdict(lv, pos, onSlope, vx, c.column, c.row) == Hit
      && Intersects(HorizontalSweptRect(pos, vx), TileRect(c.column, c.row))
  {
    var w := HorizontalWindow(lv, pos, vx);
    var lines := HorizontalLines(lv, pos, onSlope, vx);
    var b := Sweep(lines, 0);
    assert b.Blocked? && lines[b.line][b.index] == Hit;
    HorizontalCell(lv, pos, onSlope, vx, b.line, b.index);
    var c := HorizontalContact(lv, pos, onSlope, vx).value;
    assert c.column == LineAt(w, vx > 0, b.line) && c.row == RowFromBottom(w, b.index);
    assert HorizontalVerdict(lv, pos, onSlope, vx, c.column, c.row) == Hit;
  }

  /** HorizontalCollisions: the X velocity after the pass. With no contact it
      is unchanged; with one, the actor's leading side ends exactly on the
      tile's near face, which is never further than the requested move and
      never more than a tile back. */
  function HorizontalCollisions(lv: Level, pos: Point, onSlope: bool, vx: int): (r: int)
    requires Playable(lv)
    ensures vx == 0 ==> r == 0
    ensures r == vx <==> HorizontalContact(lv, pos, onSlope, vx).None?
    ensures vx > 0 ==> -TileSize < r <= vx
    ensures vx < 0 ==> vx <= r < TileSize
    ensures r != vx ==>
      var c := HorizontalContact(lv, pos, onSlope, vx).value;
      && (vx > 0 ==> pos.x + r + ActorWidth == c.column * TileSize)
      && (vx < 0 ==> pos.x + r == c.column * TileSize + TileSize)
  {
    if vx == 0 then vx
    else
      match HorizontalContact(lv, pos, onSlope, vx)
      case None => vx
      case Some(c) =>
        HorizontalContactHits(lv, pos, onSlope, vx);
        var box := HorizontalSweptRect(pos, vx);
        var tile := TileRect(c.column, c.row);
        if vx > 0 then tile.x - box.x else tile.x + tile.width - box.x - box.width
  }

  /** Every tile of the map that the swept strip overlaps lies in the scan
      window: clamping the columns and rows to the map drops no tile the
      actor could run into. */
  lemma HorizontalWindowCovers(lv: Level, pos: Point, vx: int, column: int, row: int)
    requires Playable(lv)
    requires 0 <= column < lv.Width() && 0 <= row < lv.Height()
    requires Intersects(HorizontalSweptRect(pos, vx), TileRect(column, row))
    ensures InHorizontalWindow(lv, pos, vx, column, row)
  {
    var w := HorizontalWindow(lv, pos, vx);
    var dist := Abs(vx);
    DivMonotone(pos.y, row * TileSize + TileSize - 1);
    DivMonotone(row * TileSize, pos.y + ActorHeight - 1);
    ClampMonotone(pos.y / TileSize, row, 0, lv.Height() - 1);
    ClampMonotone(row, (pos.y + ActorHeight - 1) / TileSize, 0, lv.Height() - 1);
    if vx > 0 {
      DivMonotone(pos.x + ActorWidth, column * TileSize + TileSize - 1);
      DivMonotone(column * TileSize, pos.x + ActorWidth + dist);
      ClampMonotone((pos.x + ActorWidth) / TileSize, column, 0, lv.Width() - 1);
      ClampMonotone(column, (pos.x + ActorWidth + dist) / TileSize, 0, lv.Width() - 1);
    } else {
      DivMonotone(pos.x - dist, column * TileSize + TileSize - 1);
      DivMonotone(column * TileSize, pos.x);
      ClampMonotone((pos.x - dist) / TileSize, column, 0, lv.Width() - 1);
      ClampMonotone(column, pos.x / TileSize, 0, lv.Width() - 1);
    }
  }

  /** No tile of the map the pass would meet before the contact blocks:
      neither one in a nearer column nor one lower down in the contact's own
      column. */
  lemma HorizontalNearest(lv: Level, pos: Point, onSlope: bool, vx: int, column: int, row: int)
    requires Playable(lv)
    requires HorizontalContact(lv, pos, onSlope, vx).Some?
    requires 0 <= column < lv.Width() && 0 <= row < lv.Height()
    requires var c := HorizontalContact(lv, pos, onSlope, vx).value;
      var w := HorizontalWindow(lv, pos, vx);
      Offset(w, vx > 0, column) < Offset(w, vx > 0, c.column) || (column == c.column && row > c.row)
    ensures HorizontalVerdict(lv, pos, onSlope, vx, column, row) != Hit
  {
    if Intersects(HorizontalSweptRect(pos, vx), TileRect(column, row)) {
      HorizontalWindowCovers(lv, pos, vx, column, row);
      HorizontalScannedBefore(lv, pos, onSlope, vx, column, row);
    }
  }

  /** The same inside the scan window, read off the scan's lines. */
  lemma HorizontalScannedBefore(lv: Level, pos: Point, onSlope: bool, vx: int, column: int, row: int)
    requires Playable(lv)
    requires HorizontalContact(lv, pos, onSlope, vx).Some?
    requires 0 <= column < lv.Width() && 0 <= row < lv.Height()
    requires InHorizontalWindow(lv, pos, vx, column, row)
    requires var c := HorizontalContact(lv, pos, onSlope, vx).value;
      var w := HorizontalWindow(lv, pos, vx);
      Offset(w, vx > 0, column) < Offset(w, vx > 0, c.column) || (column == c.column && row > c.row)
    ensures HorizontalVerdict(lv, pos, onSlope, vx, column, row) != Hit
  {
    var w := HorizontalWindow(lv, pos, vx);
    var lines := HorizontalLines(lv, pos, onSlope, vx);
    var b := Sweep(lines, 0);
    var c := HorizontalContact(lv, pos, onSlope, vx).value;
    assert Offset(w, vx > 0, c.column) == b.line && w.high - c.row == b.index;
    HorizontalCellAt(lv, pos, onSlope, vx, column, row);
    BlockedIsFirstHit(lines, Offset(w, vx > 0, column), w.high - row);
  }

  /** A scan with no Hit up to a line that ends on a graze leaves the
      velocity unchanged. */
  lemma HorizontalHalted(lv: Level, pos: Point, onSlope: bool, vx: int, stop: nat)
    requires Playable(lv) && vx != 0
    requires var lines := HorizontalLines(lv, pos, onSlope, vx);
      && stop < |lines| && 0 < |lines[stop]| && lines[stop][|lines[stop]| - 1] == Graze
      && forall l, k :: 0 <= l <= stop && 0 <= k < |lines[l]| ==> lines[l][k] != Hit
    ensures HorizontalCollisions(lv, pos, onSlope, vx) == vx
  {
    var lines := HorizontalLines(lv, pos, onSlope, vx);
    assert !Passable(lines[stop]);
    assert !Sweep(lines, 0).Blocked?;
  }

  /** With no blocking cell in or before the given column, no Hit shows in
      the lines scanned up to it. */
  lemma HorizontalClear(lv: Level, pos: Point, onSlope: bool, vx: int, column: int)
    requires Playable(lv) && vx != 0
    requires 0 <= column < lv.Width()
    requires InHorizontalWindow(lv, pos, vx, column, HorizontalWindow(lv, pos, vx).low)
    requires forall x, y ::
      && 0 <= x < lv.Width() && 0 <= y < lv.Height()
      && InHorizontalWindow(lv, pos, vx, x, y)
      && Offset(HorizontalWindow(lv, pos, vx), vx > 0, x) <= Offset(HorizontalWindow(lv, pos, vx), vx > 0, column)
      ==> HorizontalVerdict(lv, pos, onSlope, vx, x, y) != Hit
    ensures var lines := HorizontalLines(lv, pos, onSlope, vx);
      var stop := Offset(HorizontalWindow(lv, pos, vx), vx > 0, column);
      && 0 <= stop < |lines|
      && forall l, k :: 0 <= l <= stop && 0 <= k < |lines[l]| ==> lines[l][k] != Hit
  {
    var w := HorizontalWindow(lv, pos, vx);
    var lines := HorizontalLines(lv, pos, onSlope, vx);
    var stop := Offset(w, vx > 0, column);
    forall l, k | 0 <= l <= stop && 0 <= k < |lines[l]|
      ensures lines[l][k] != Hit
    {
      HorizontalCell(lv, pos, onSlope, vx, l, k);
      assert HorizontalVerdict(lv, pos, onSlope, vx, LineAt(w, vx > 0, l), RowFromBottom(w, k)) != Hit;
    }
  }

  /** A column whose cells do not block and whose topmost scanned cell is a
      permeable slope side stops the pass with the velocity unchanged, when no
      nearer cell blocks, whatever the columns beyond it hold. */
  lemma HorizontalGrazeStops(lv: Level, pos: Point, onSlope: bool, vx: int, column: int)
    requires Playable(lv) && vx != 0
    requires 0 <= column < lv.Width()
    requires InHorizontalWindow(lv, pos, vx, column, HorizontalWindow(lv, pos, vx).low)
    requires forall x, y ::
      && 0 <= x < lv.Width() && 0 <= y < lv.Height()
      && InHorizontalWindow(lv, pos, vx, x, y)
      && Offset(HorizontalWindow(lv, pos, vx), vx > 0, x) <= Offset(HorizontalWindow(lv, pos, vx), vx > 0, column)
      ==> HorizontalVerdict(lv, pos, onSlope, vx, x, y) != Hit
    requires HorizontalVerdict(lv, pos, onSlope, vx, column, HorizontalWindow(lv, pos, vx).low) == Graze
    ensures HorizontalCollisions(lv, pos, onSlope, vx) == vx
  {
    var w := HorizontalWindow(lv, pos, vx);
    var stop := Offset(w, vx > 0, column);
    HorizontalClear(lv, pos, onSlope, vx, column);
    assert column == LineAt(w, vx > 0, stop);
    HorizontalCell(lv, pos, onSlope, vx, stop, w.high - w.low);
    HorizontalHalted(lv, pos, onSlope, vx, stop);
  }

  // =======================================================================
  // Vertical pass

  /** The strip of height |vy| above (rising) or below (falling) the actor,
      as wide as the actor. */
  function VerticalSweptRect(pos: Point, vy: int): (box: Rect)
    ensures box.height == Abs(vy) && box.x == pos.x && box.width == ActorWidth
    ensures vy > 0 ==> box.y == pos.y + ActorHeight
    ensures vy < 0 ==> box.Bottom() == pos.y
  {
    var dist := Abs(vy);
    Rect(pos.x, if vy > 0 then pos.y + ActorHeight else pos.y - dist, ActorWidth, dist)
  }

  /** Rows from the one under the leading side to the one reached after the
      full move, and the columns covered by the actor, clamped to the map. */
  function VerticalWindow(lv: Level, pos: Point, vy: int): (w: Window)
    requires Playable(lv)
    ensures Fits(w, vy > 0, lv.Height(), lv.Width())
  {
    var dist := Abs(vy);
    var close := if vy > 0 then (pos.y + ActorHeight) / TileSize else pos.y / TileSize;
    var far := if vy > 0 then (pos.y + ActorHeight + dist) / TileSize else (pos.y - dist) / TileSize;
    var minColumn := Clamp(pos.x / TileSize, 0, lv.Width() - 1);
    var w := Window(Clamp(close, 0, lv.Height() - 1), Clamp(far, 0, lv.Height() - 1),
                    minColumn, Clamp((pos.x + ActorWidth - 1) / TileSize, minColumn, lv.Width() - 1));
    if vy > 0 then
      DivMonotone(pos.y + ActorHeight, pos.y + ActorHeight + dist);
      ClampMonotone(close, far, 0, lv.Height() - 1);
      w
    else
      DivMonotone(pos.y - dist, pos.y);
      ClampMonotone(far, close, 0, lv.Height() - 1);
      w
  }

  /** A cell inside the vertical pass's window. */
  ghost predicate InVerticalWindow(lv: Level, pos: Point, vy: int, column: int, row: int)
    requires Playable(lv)
  {
    var w := VerticalWindow(lv, pos, vy);
    && 0 <= Offset(w, vy > 0, row) <= Offset(w, vy > 0, w.far)
    && w.low <= column <= w.high
  }

  /** One iteration of the inner loop over columns (Player.cs, lines 193-223).
      Empty tiles never stop vertical motion. A slope stops only a rising
      actor whose top is at or below the slope tile's bottom. A platform stops
      only a falling actor whose bottom is at or above the platform's top;
      otherwise it is passed through. */
  function VerticalVerdict(lv: Level, pos: Point, vy: int, column: int, row: int): (v: Verdict)
    requires Playable(lv)
    requires 0 <= column < lv.Width() && 0 <= row < lv.Height()
    ensures var code := lv.Tile(column, row);
      && (code == Void ==> v == Miss)
      && (v != Miss <==>
            && code != Void
            && !(IsSlopeTile(code) && (vy > 0 || pos.y < row * TileSize + TileSize))
            && Intersects(VerticalSweptRect(pos, vy), TileRect(column, row)))
      && (IsSlopeTile(code) && v == Hit ==> vy < 0 && pos.y >= row * TileSize + TileSize)
      && (v == Graze ==> code == Platform)
      && (code == Platform && v != Miss ==> (v == Hit <==> vy > 0 && pos.y + ActorHeight <= row * TileSize))
  {
    var code := lv.Tile(column, row);
    var tile := TileRect(column, row);
    if code == Void then Miss
    else if IsSlopeTile(code) && (vy > 0 || pos.y < tile.Bottom()) then Miss
    else if !Intersects(VerticalSweptRect(pos, vy), tile) then Miss
    else if code == Platform && (vy < 0 || pos.y + ActorHeight > tile.y) then Graze
    else Hit
  }

  /** The verdicts for the `i`-th row scanned, columns from left to right. */
  function VerticalLine(lv: Level, pos: Point, vy: int, w: Window, i: int): (line: seq<Verdict>)
    requires Playable(lv) && Fits(w, vy > 0, lv.Height(), lv.Width())
    requires 0 <= i < LineCount(w)
    ensures |line| == w.high - w.low + 1
    ensures 0 <= LineAt(w, vy > 0, i) < lv.Height()
    ensures forall k :: 0 <= k < |line| ==>
      line[k] == VerticalVerdict(lv, pos, vy, ColumnFromLeft(w, k), LineAt(w, vy > 0, i))
  {
    var row := LineAt(w, vy > 0, i);
    LineInWindow(w, vy > 0, i);
    seq(w.high - w.low + 1, k requires 0 <= k < w.high - w.low + 1 =>
      VerticalVerdict(lv, pos, vy, ColumnFromLeft(w, k), row))
  }

  /** The verdicts in scan order: rows nearest first, and within a row columns
      from left to right. */
  function VerticalLines(lv: Level, pos: Point, vy: int): (lines: seq<seq<Verdict>>)
    requires Playable(lv)
    ensures var w := VerticalWindow(lv, pos, vy);
      && |lines| == LineCount(w)
      && forall i :: 0 <= i < |lines| ==> lines[i] == VerticalLine(lv, pos, vy, w, i)
  {
    var w := VerticalWindow(lv, pos, vy);
    seq(LineCount(w), i requires 0 <= i < LineCount(w) => VerticalLine(lv, pos, vy, w, i))
  }

  /** The `k`-th column counted from the left one and the `i`-th row scanned
      make a cell inside the map and the window. */
  lemma VerticalPlace(lv: Level, pos: Point, vy: int, i: int, k: int)
    requires Playable(lv)
    requires 0 <= i < LineCount(VerticalWindow(lv, pos, vy))
    requires 0 <= k <= VerticalWindow(lv, pos, vy).high - VerticalWindow(lv, pos, vy).low
    ensures var w := VerticalWindow(lv, pos, vy);
      var row := LineAt(w, vy > 0, i);
      && 0 <= ColumnFromLeft(w, k) < lv.Width() && 0 <= row < lv.Height()
      && Offset(w, vy > 0, row) == i
      && InVerticalWindow(lv, pos, vy, ColumnFromLeft(w, k), row)
  {
    LineInWindow(VerticalWindow(lv, pos, vy), vy > 0, i);
  }

  /** Cell `k` of line `i` is the verdict for the `k`-th column counted from
      the left one and the `i`-th row scanned. */
  lemma VerticalCell(lv: Level, pos: Point, vy: int, i: int, k: int)
    requires Playable(lv)
    requires 0 <= i < LineCount(VerticalWindow(lv, pos, vy))
    requires 0 <= k <= VerticalWindow(lv, pos, vy).high - VerticalWindow(lv, pos, vy).low
    ensures var w := VerticalWindow(lv, pos, vy);
      var row := LineAt(w, vy > 0, i);
      && 0 <= ColumnFromLeft(w, k) < lv.Width() && 0 <= row < lv.Height()
      && Offset(w, vy > 0, row) == i
      && InVerticalWindow(lv, pos, vy, ColumnFromLeft(w, k), row)
      && VerticalLines(lv, pos, vy)[i][k] == VerticalVerdict(lv, pos, vy, ColumnFromLeft(w, k), row)
  {
    var w := VerticalWindow(lv, pos, vy);
    VerticalPlace(lv, pos, vy, i, k);
    assert VerticalLines(lv, pos, vy)[i] == VerticalLine(lv, pos, vy, w, i);
  }

  /** The same correspondence seen from a cell of the window: its verdict
      is found in the line of its row, at its distance from the left column. */
  lemma VerticalCellAt(lv: Level, pos: Point, vy: int, column: int, row: int)
    requires Playable(lv)
    requires 0 <= column < lv.Width() && 0 <= row < lv.Height()
    requires InVerticalWindow(lv, pos, vy, column, row)
    ensures var w := VerticalWindow(lv, pos, vy);
      var lines := VerticalLines(lv, pos, vy);
      var i := Offset(w, vy > 0, row);
      && 0 <= i < |lines| && 0 <= column - w.low < |lines[i]|
      && lines[i][column - w.low] == VerticalVerdict(lv, pos, vy, column, row)
  {
    var w := VerticalWindow(lv, pos, vy);
    var i := Offset(w, vy > 0, row);
    assert LineAt(w, vy > 0, i) == row;
    assert ColumnFromLeft(w, column - w.low) == column;
    VerticalCell(lv, pos, vy, i, column - w.low);
  }

  /** The tile the vertical pass stops against, if any. */
  function VerticalContact(lv: Level, pos: Point, vy: int): (c: Option<Cell>)
    requires Playable(lv)
    ensures vy == 0 ==> c.None?
    ensures vy != 0 ==> (c.Some? <==> Sweep(VerticalLines(lv, pos, vy), 0).Blocked?)
    ensures c.Some? ==>
      var w := VerticalWindow(lv, pos, vy);
      var b := Sweep(VerticalLines(lv, pos, vy), 0);
      b.Blocked? && c.value == Cell(ColumnFromLeft(w, b.index), LineAt(w, vy > 0, b.line))
  {
    if vy == 0 then None
    else
      var w := VerticalWindow(lv, pos, vy);
      var b := Sweep(VerticalLines(lv, pos, vy), 0);
      if b.Blocked? then Some(Cell(ColumnFromLeft(w, b.index), LineAt(w, vy > 0, b.line))) else None
  }

  /** The contact is a blocking cell of the map inside the scan window, and
      the actor's swept strip overlaps it. */
  lemma VerticalContactHits(lv: Level, pos: Point, vy: int)
    requires Playable(lv)
    requires VerticalContact(lv, pos, vy).Some?
    ensures var c := VerticalContact(lv, pos, vy).value;
      && 0 <= c.column < lv.Width() && 0 <= c.row < lv.Height()
      && InVerticalWindow(lv, pos, vy, c.column, c.row)
      && VerticalVerdict(lv, pos, vy, c.column, c.row) == Hit
      && Intersects(VerticalSweptRect(pos, vy), TileRect(c.column, c.row))
  {
    var w := VerticalWindow(lv, pos, vy);
    var lines := VerticalLines(lv, pos, vy);
    var b := Sweep(lines, 0);
    assert b.Blocked? && lines[b.line][b.index] == Hit;
    VerticalCell(lv, pos, vy, b.line, b.index);
    var c := VerticalContact(lv, pos, vy).value;
    assert c.column == ColumnFromLeft(w, b.index) && c.row == LineAt(w, vy > 0, b.line);
    assert VerticalVerdict(lv, pos, vy, c.column, c.row) == Hit;
  }

  /** VerticalCollisions: the Y velocity after the pass. With no contact it is
      unchanged; with one, the actor's leading side ends exactly on the tile's
      near face, never further than the requested move and never more than a
      tile back. */
  function VerticalCollisions(lv: Level, pos: Point, vy: int): (r: int)
    requires Playable(lv)
    ensures vy == 0 ==> r == 0
    ensures r == vy <==> VerticalContact(lv, pos, vy).None?
    ensures vy > 0 ==> -TileSize < r <= vy
    ensures vy < 0 ==> vy <= r < TileSize
    ensures r != vy ==>
      var c := VerticalContact(lv, pos, vy).value;
      && (vy > 0 ==> pos.y + r + ActorHeight == c.row * TileSize)
      && (vy < 0 ==> pos.y + r == c.row * TileSize + TileSize)
  {
    if vy == 0 then vy
    else
      match VerticalContact(lv, pos, vy)
      case None => vy
      case Some(c) =>
        VerticalContactHits(lv, pos, vy);
        var box := VerticalSweptRect(pos, vy);
        var tile := TileRect(c.column, c.row);
        if vy > 0 then tile.y - box.y else tile.y + tile.height - box.y - box.height
  }

  /** Every tile of the map that the swept strip overlaps lies in the scan
      window. */
  lemma VerticalWindowCovers(lv: Level, pos: Point, vy: int, column: int, row: int)
    requires Playable(lv)
    requires 0 <= column < lv.Width() && 0 <= row < lv.Height()
    requires Intersects(VerticalSweptRect(pos, vy), TileRect(column, row))
    ensures InVerticalWindow(lv, pos, vy, column, row)
  {
    var w := VerticalWindow(lv, pos, vy);
    var dist := Abs(vy);
    DivMonotone(pos.x, column * TileSize + TileSize - 1);
    DivMonotone(column * TileSize, pos.x + ActorWidth - 1);
    ClampMonotone(pos.x / TileSize, column, 0, lv.Width() - 1);
    assert w.low <= column;
    ClampMonotone(column, (pos.x + ActorWidth - 1) / TileSize, w.low, lv.Width() - 1);
    if vy > 0 {
      DivMonotone(pos.y + ActorHeight, row * TileSize + TileSize - 1);
      DivMonotone(row * TileSize, pos.y + ActorHeight + dist);
      ClampMonotone((pos.y + ActorHeight) / TileSize, row, 0, lv.Height() - 1);
      ClampMonotone(row, (pos.y + ActorHeight + dist) / TileSize, 0, lv.Height() - 1);
    } else {
      DivMonotone(pos.y - dist, row * TileSize + TileSize - 1);
      DivMonotone(row * TileSize, pos.y);
      ClampMonotone((pos.y - dist) / TileSize, row, 0, lv.Height() - 1);
      ClampMonotone(row, pos.y / TileSize, 0, lv.Height() - 1);
    }
  }

  /** No tile of the map the pass would meet before the contact blocks:
      neither one in a nearer row nor one further left in the contact's own
      row. */
  lemma VerticalNearest(lv: Level, pos: Point, vy: int, column: int, row: int)
    requires Playable(lv)
    requires VerticalContact(lv, pos, vy).Some?
    requires 0 <= column < lv.Width() && 0 <= row < lv.Height()
    requires var c := VerticalContact(lv, pos, vy).value;
      var w := VerticalWindow(lv, pos, vy);
      Offset(w, vy > 0, row) < Offset(w, vy > 0, c.row) || (row == c.row && column < c.column)
    ensures VerticalVerdict(lv, pos, vy, column, row) != Hit
  {
    if Intersects(VerticalSweptRect(pos, vy), TileRect(column, row)) {
      VerticalWindowCovers(lv, pos, vy, column, row);
      VerticalScannedBefore(lv, pos, vy, column, row);
    }
  }

  /** The same inside the scan window, read off the scan's lines. */
  lemma VerticalScannedBefore(lv: Level, pos: Point, vy: int, column: int, row: int)
    requires Playable(lv)
    requires VerticalContact(lv, pos, vy).Some?
    requires 0 <= column < lv.Width() && 0 <= row < lv.Height()
    requires InVerticalWindow(lv, pos, vy, column, row)
    requires var c := VerticalContact(lv, pos, vy).value;
      var w := VerticalWindow(lv, pos, vy);
      Offset(w, vy > 0, row) < Offset(w, vy > 0, c.row) || (row == c.row && column < c.column)
    ensures VerticalVerdict(lv, pos, vy, column, row) != Hit
  {
    var w := VerticalWindow(lv, pos, vy);
    var lines := VerticalLines(lv, pos, vy);
    var b := Sweep(lines, 0);
    var c := VerticalContact(lv, pos, vy).value;
    assert Offset(w, vy > 0, c.row) == b.line && c.column - w.low == b.index;
    VerticalCellAt(lv, pos, vy, column, row);
    BlockedIsFirstHit(lines, Offset(w, vy > 0, row), column - w.low);
  }

  /** A scan with no Hit up to a line that ends on a graze leaves the
      velocity unchanged. */
  lemma VerticalHalted(lv: Level, pos: Point, vy: int, stop: nat)
    requires Playable(lv) && vy != 0
    requires var lines := VerticalLines(lv, pos, vy);
      && stop < |lines| && 0 < |lines[stop]| && lines[stop][|lines[stop]| - 1] == Graze
      && forall l, k :: 0 <= l <= stop && 0 <= k < |lines[l]| ==> lines[l][k] != Hit
    ensures VerticalCollisions(lv, pos, vy) == vy
  {
    var lines := VerticalLines(lv, pos, vy);
    assert !Passable(lines[stop]);
    assert !Sweep(lines, 0).Blocked?;
  }

  /** With no blocking cell in or before the given row, no Hit shows in
      the lines scanned up to it. */
  lemma VerticalClear(lv: Level, pos: Point, vy: int, row: int)
    requires Playable(lv) && vy != 0
    requires 0 <= row < lv.Height()
    requires InVerticalWindow(lv, pos, vy, VerticalWindow(lv, pos, vy).high, row)
    requires forall x, y ::
      && 0 <= x < lv.Width() && 0 <= y < lv.Height()
      && InVerticalWindow(lv, pos, vy, x, y)
      && Offset(VerticalWindow(lv, pos, vy), vy > 0, y) <= Offset(VerticalWindow(lv, pos, vy), vy > 0, row)
      ==> VerticalVerdict(lv, pos, vy, x, y) != Hit
    ensures var lines := VerticalLines(lv, pos, vy);
      var stop := Offset(VerticalWindow(lv, pos, vy), vy > 0, row);
      && 0 <= stop < |lines|
      && forall l, k :: 0 <= l <= stop && 0 <= k < |lines[l]| ==> lines[l][k] != Hit
  {
    var w := VerticalWindow(lv, pos, vy);
    var lines := VerticalLines(lv, pos, vy);
    var stop := Offset(w, vy > 0, row);
    forall l, k | 0 <= l <= stop && 0 <= k < |lines[l]|
      ensures lines[l][k] != Hit
    {
      VerticalCell(lv, pos, vy, l, k);
      assert VerticalVerdict(lv, pos, vy, ColumnFromLeft(w, k), LineAt(w, vy > 0, l)) != Hit;
    }
  }

  /** A row whose cells do not block and whose rightmost scanned cell is a
      platform passed through stops the pass with the velocity unchanged, when
      no nearer cell blocks, whatever the rows beyond it hold. */
  lemma VerticalGrazeStops(lv: Level, pos: Point, vy: int, row: int)
    requires Playable(lv) && vy != 0
    requires 0 <= row < lv.Height()
    requires InVerticalWindow(lv, pos, vy, VerticalWindow(lv, pos, vy).high, row)
    requires forall x, y ::
      && 0 <= x < lv.Width() && 0 <= y < lv.Height()
      && InVerticalWindow(lv, pos, vy, x, y)
      && Offset(VerticalWindow(lv, pos, vy), vy > 0, y) <= Offset(VerticalWindow(lv, pos, vy), vy > 0, row)
      ==> VerticalVerdict(lv, pos, vy, x, y) != Hit
    requires VerticalVerdict(lv, pos, vy, VerticalWindow(lv, pos, vy).high, row) == Graze
    ensures VerticalCollisions(lv, pos, vy) == vy
  {
    var w := VerticalWindow(lv, pos, vy);
    var stop := Offset(w, vy > 0, row);
    VerticalClear(lv, pos, vy, row);
    assert row == LineAt(w, vy > 0, stop);
    VerticalCell(lv, pos, vy, stop, w.high - w.low);
    VerticalHalted(lv, pos, vy, stop);
  }
}

=== FILE: geometry.dfy ===
/** Integer geometry shared by the tile map and the actor: points, axis-aligned
    rectangles with MonoGame's strict intersection test, MonoGame's integer
    clamp, and the truncating conversions C# uses for `(int)` casts. */
module Geometry {

  datatype Point = Point(x: int, y: int)

  /** An axis-aligned box covering the half-open ranges [x, x + width) and
      [y, y + height). */
  datatype Rect = Rect(x: int, y: int, width: int, height: int) {
    function Right(): int { x + width }
    function Bottom(): int { y + height }
  }

  /** The pixel (`x`, `y`) lies inside the box. */
  predicate Covers(r: Rect, x: int, y: int)
  {
    r.x <= x < r.Right() && r.y <= y < r.Bottom()
  }

  /** Rectangle.Intersects: the two boxes overlap on both axes; boxes that
      only touch along an edge do not count. */
  predicate Intersects(a: Rect, b: Rect)
    ensures a.Right() == b.x || b.Right() == a.x ==> !Intersects(a, b)
    ensures a.Bottom() == b.y || b.Bottom() == a.y ==> !Intersects(a, b)
  {
    && b.x < a.Right() && a.x < b.Right()
    && b.y < a.Bottom() && a.y < b.Bottom()
  }

  /** Two boxes that share a pixel intersect; for boxes with a positive size
      the converse holds too. */
  lemma IntersectsSharePixel(a: Rect, b: Rect)
    ensures (exists x, y :: Covers(a, x, y) && Covers(b, x, y)) ==> Intersects(a, b)
    ensures a.width > 0 && a.height > 0 && b.width > 0 && b.height > 0 && Intersects(a, b) ==>
              exists x, y :: Covers(a, x, y) && Covers(b, x, y)
  {
    var x := if a.x < b.x then b.x else a.x;
    var y := if a.y < b.y then b.y else a.y;
    if a.width > 0 && a.height > 0 && b.width > 0 && b.height > 0 && Intersects(a, b) {
      assert Covers(a, x, y) && Covers(b, x, y);
    }
  }

  /** MathHelper.Clamp on integers: the upper bound is applied first and the
      lower bound second, so the lower bound wins when the range is empty. */
  function Clamp(value: int, min: int, max: int): (r: int)
    ensures min <= max ==> min <= r <= max
    ensures min <= value <= max ==> r == value
    ensures max < min ==> r == min
    ensures value < min ==> r == min
    ensures min <= max < value ==> r == max
  {
    var v := if value > max then max else value;
    if v < min then min else v
  }

  /** Clamping to a fixed range preserves the order of its arguments. */
  lemma ClampMonotone(a: int, b: int, min: int, max: int)
    requires a <= b
    ensures Clamp(a, min, max) <= Clamp(b, min, max)
  {
  }

  function Abs(v: int): (r: int)
    ensures r >= 0
    ensures r == v || r == -v
  {
    if v < 0 then -v else v
  }

  /** The C# cast `(int)` of a real value: rounds toward zero. */
  function Trunc(v: real): (r: int)
    ensures 0.0 <= v ==> r as real <= v < r as real + 1.0
    ensures v < 0.0 ==> r as real - 1.0 < v <= r as real
  {
    if v >= 0.0 then v.Floor else -((-v).Floor)
  }

  /** Shifting the argument of a truncation by a whole number that keeps its
      sign shifts the result by the same amount. */
  lemma TruncShift(v: real, n: int)
    requires (0.0 <= v && 0.0 <= v - n as real) || (v <= 0.0 && v - n as real <= 0.0)
    ensures Trunc(v - n as real) == Trunc(v) - n
  {
  }

  /** Division of integers rounding toward zero, as C# does for `(int)` of an
      exact quotient. */
  function TruncDiv(n: int, d: int): (q: int)
    requires d > 0
    ensures 0 <= n ==> q * d <= n < q * d + d
    ensures n < 0 ==> q * d - d < n <= q * d
  {
    if n >= 0 then n / d else -((-n) / d)
  }
}

=== FILE: level.dfy ===
/** The collision map of Level.cs: a fixed grid of tile codes parsed from
    comma-separated rows, and the pure classification of codes into slopes,
    their orientation and their edge heights. */
module Levels {
  import opened Text

  const TileSize: int := 16

  /** Code 0 is empty space, 1 a solid block, 2 to 7 the slopes and 8 a
      one-way platform. */
  const Void: int := 0
  const Solid: int := 1
  const Platform: int := 8

  /** The grid, stored row by row: `rows[r][c]` is the code in column `c` of
      row `r`, rows listed top to bottom. The width is kept on its own so that
      a map with no rows still has one. */
  datatype Level = Level(width: nat, rows: seq<seq<int>>) {

    ghost predicate Valid()
    {
      forall r :: 0 <= r < |rows| ==> |rows[r]| == width
    }

    function Width(): nat { width }

    function Height(): nat { |rows| }

    /** The indexer `level[column, row]`; callers clamp their indices first.
        The column comes first although the grid is stored row by row. */
    function Tile(column: int, row: int): (code: int)
      requires Valid()
      requires 0 <= column < Width() && 0 <= row < Height()
      ensures code == rows[row][column] && code in rows[row]
    {
      rows[row][column]
    }
  }

  /** A map the per-frame resolver can run on: it always reads at least one
      cell, so it needs at least one column and one row. */
  ghost predicate Playable(lv: Level)
  {
    lv.Valid() && lv.Width() >= 1 && lv.Height() >= 1
  }

  // ---------------------------------------------------------------------
  // Construction from text

  /** One row of the constructor's loop: the first `columns` comma tokens
      are parsed, missing cells keep the array's initial 0. */
  function ParseRow(columns: nat, text: string): (cells: seq<int>)
    ensures |cells| == columns
  {
    var tokens := Split(text, ',');
    var parsed := if |tokens| < columns then |tokens| else columns;
    seq(parsed, x requires 0 <= x < parsed => TryParseInt(tokens[x]))
      + seq(columns - parsed, _ => 0)
  }

  /** The constructor `Level(int columns, string[] rows)`. */
  function FromRows(columns: nat, text: seq<string>): (lv: Level)
    ensures lv.Valid()
    ensures lv.Width() == columns && lv.Height() == |text|
    ensures forall x, y :: 0 <= x < columns && 0 <= y < |text| ==>
      lv.Tile(x, y) == (if x < |Split(text[y], ',')| then TryParseInt(Split(text[y], ',')[x]) else 0)
  {
    Level(columns, seq(|text|, y requires 0 <= y < |text| => ParseRow(columns, text[y])))
  }

  /** Every stored code fits the 32-bit cells of Level's collision map. */
  ghost predicate Int32Codes(lv: Level)
  {
    forall r, c :: 0 <= r < |lv.rows| && 0 <= c < |lv.rows[r]| ==> MinInt32 <= lv.rows[r][c] <= MaxInt32
  }

  function RenderRow(cells: seq<int>): string
  {
    Join(seq(|cells|, x requires 0 <= x < |cells| => ShowInt(cells[x])), ',')
  }

  /** The textual form of a map: each row written as comma-separated decimals. */
  function Render(lv: Level): seq<string>
  {
    seq(|lv.rows|, y requires 0 <= y < |lv.rows| => RenderRow(lv.rows[y]))
  }

  /** A row of 32-bit codes written out and parsed back is the same row. */
  lemma ParseRenderRow(cells: seq<int>)
    requires forall x :: 0 <= x < |cells| ==> MinInt32 <= cells[x] <= MaxInt32
    ensures ParseRow(|cells|, RenderRow(cells)) == cells
  {
    var tokens := seq(|cells|, x requires 0 <= x < |cells| => ShowInt(cells[x]));
    if |cells| > 0 {
      forall i | 0 <= i < |tokens|
        ensures ',' !in tokens[i]
      {
        ShowIntHasNoComma(cells[i]);
      }
      SplitJoin(tokens, ',');
      var back := ParseRow(|cells|, RenderRow(cells));
      forall x | 0 <= x < |cells|
        ensures back[x] == cells[x]
      {
        TryParseShowInt(cells[x]);
      }
    }
  }

  /** Rendering a map and parsing it back gives the same map. */
  lemma ParseRender(lv: Level)
    requires lv.Valid() && Int32Codes(lv)
    ensures FromRows(lv.Width(), Render(lv)) == lv
  {
    var back := FromRows(lv.Width(), Render(lv));
    forall y | 0 <= y < lv.Height()
      ensures back.rows[y] == lv.rows[y]
    {
      ParseRenderRow(lv.rows[y]);
    }
  }

  lemma ShowIntHasNoComma(n: int)
    ensures ',' !in ShowInt(n)
  {
    var s := ShowInt(n);
    var m := if n < 0 then -n else n;
    var digits := ShowNat(m);
    assert forall i :: 0 <= i < |digits| ==> digits[i] != ',';
    if n < 0 {
      assert forall i :: 1 <= i < |s| ==> s[i] == digits[i - 1];
    }
  }

  // ---------------------------------------------------------------------
  // Classification of codes

  /** The slopes drawn mirrored, whose ramp rises to the left. */
  predicate IsTileXFlipped(code: int)
    ensures IsTileXFlipped(code) ==> IsSlopeTile(code)
  {
    code == 3 || code == 6 || code == 7
  }

  /** The slope codes: none of them is empty, solid or a platform. */
  predicate IsSlopeTile(code: int)
    ensures IsSlopeTile(code) ==> code != Void && code != Solid && code != Platform
  {
    code >= 2 && code <= 7
  }

  /** The heights, measured down from the tile's top, of a slope's surface at
      its left and right edges; (0, 0) for any other code. */
  function GetSlopeYPositions(code: int): (heights: (int, int))
    ensures !IsSlopeTile(code) ==> heights == (0, 0)
    ensures IsSlopeTile(code) ==> 0 <= heights.0 <= TileSize && 0 <= heights.1 <= TileSize
    ensures IsSlopeTile(code) ==> heights.0 != heights.1
    ensures IsSlopeTile(code) ==> (IsTileXFlipped(code) <==> heights.0 < heights.1)
  {
    match code
    case 2 => (TileSize, 0)
    case 3 => (0, TileSize)
    case 4 => (TileSize, TileSize / 2)
    case 5 => (TileSize / 2, 0)
    case 6 => (0, TileSize / 2)
    case 7 => (TileSize / 2, TileSize)
    case _ => (0, 0)
  }

  /** The horizontal offset of a code's picture in the tile sheet
      (GetTileSourceRect); it shows which slope codes draw the same shape. */
  function SpriteOffset(code: int): (offset: int)
    ensures 0 <= offset <= 4 * TileSize && offset % TileSize == 0
    ensures IsSlopeTile(code) ==> TileSize <= offset <= 3 * TileSize
    ensures offset == 4 * TileSize <==> code == Platform
    ensures offset == 0 <==> !IsSlopeTile(code) && code != Platform
  {
    match code
    case 2 => 16
    case 3 => 16
    case 4 => 32
    case 5 => 48
    case 6 => 48
    case 7 => 32
    case 8 => 64
    case _ => 0
  }

  /** The code drawing the same slope shape mirrored left to right. */
  function Mirror(code: int): int
  {
    match code
    case 2 => 3
    case 3 => 2
    case 4 => 7
    case 7 => 4
    case 5 => 6
    case 6 => 5
    case _ => code
  }

  /** Every flipped code is a slope, and the slope codes are exactly 2 to 7. */
  lemma FlippedCodesAreSlopes(code: int)
    ensures IsTileXFlipped(code) ==> IsSlopeTile(code)
    ensures IsSlopeTile(code) <==> 2 <= code <= 7
    ensures IsTileXFlipped(code) <==> code in {3, 6, 7}
  {
  }

  /** The slope codes come in mirror pairs 2/3, 4/7 and 5/6: the two codes of
      a pair draw the same picture, have opposite flip flags and swapped edge
      heights. */
  lemma MirrorPairs(code: int)
    requires IsSlopeTile(code)
    ensures IsSlopeTile(Mirror(code)) && Mirror(code) != code
    ensures Mirror(Mirror(code)) == code
    ensures SpriteOffset(Mirror(code)) == SpriteOffset(code)
    ensures IsTileXFlipped(Mirror(code)) != IsTileXFlipped(code)
    ensures GetSlopeYPositions(Mirror(code)).0 == GetSlopeYPositions(code).1
    ensures GetSlopeYPositions(Mirror(code)).1 == GetSlopeYPositions(code).0
  {
  }
}

=== FILE: player.dfy ===
/** The actor of Player.cs and its per-frame `Update`: input and gravity
    give a desired velocity, a sub-pixel accumulator turns it into whole
    pixels, and the four passes resolve it against the map in a fixed order.

    Keyboard polling is replaced by an `Input` record of the keys the frame
    reads, and the frame time is taken to be exactly one 60th of a second. */
module Players {
  import opened Geometry
  import opened Levels
  import opened Collisions
  import opened Surface
  import opened Scan

  datatype Vec = Vec(x: real, y: real)

  /** The keys Update reads: R, Up and Down, W and S as pressed this frame,
      A and D as held. */
  datatype Input = Input(reset: bool, speedUp: bool, speedDown: bool,
                         left: bool, right: bool, jump: bool, drop: bool)

  /** Move speed is counted in quarter pixels per frame (m_moveSpeed * 4). */
  const InitialSpeed: int := 8
  const MinSpeed: int := 1
  const Gravity: real := 0.75
  const JumpVelocity: real := -10.0

  datatype Player = Player(
    start: Point,
    position: Point,
    remainder: Vec,
    velocity: Vec,
    speed: int,
    grounded: bool,
    onPlatform: bool,
    onSlope: bool)

  /** The highest X and Y the axis clamps allow. */
  function MaxX(lv: Level): int { lv.Width() * TileSize - ActorWidth }

  function MaxY(lv: Level): int { lv.Height() * TileSize - ActorHeight }

  /** The constructor: the start position is the given one, and the actor
      begins at rest, airborne, at the default speed. */
  function NewPlayer(start: Point): (p: Player)
    ensures p.position == p.start == start
    ensures p.velocity == p.remainder == Vec(0.0, 0.0)
    ensures p.speed == InitialSpeed && !p.grounded && !p.onPlatform && !p.onSlope
  {
    Player(start, start, Vec(0.0, 0.0), Vec(0.0, 0.0), InitialSpeed, false, false, false)
  }

  function Count(b: bool): int { if b then 1 else 0 }

  /** Lines 34-55 of Update: reset, speed keys, desired velocity, gravity,
      jump and dropping through a platform. */
  function Controls(p: Player, input: Input): (q: Player)
    ensures q.start == p.start && q.remainder == p.remainder
    ensures q.grounded == p.grounded && q.onPlatform == p.onPlatform && q.onSlope == p.onSlope
    // reset puts the actor back exactly where it started
    ensures q.position.x == (if input.reset then p.start.x else p.position.x)
    // dropping through moves the actor one pixel down, and only off a platform
    ensures q.position.y == (if input.reset then p.start.y else p.position.y)
                            + (if input.drop && p.onPlatform then 1 else 0)
    // one speed step per key press, never below a quarter pixel
    ensures q.speed >= MinSpeed
    ensures p.speed + Count(input.speedUp) - Count(input.speedDown) >= MinSpeed ==>
              q.speed == p.speed + Count(input.speedUp) - Count(input.speedDown)
    ensures q.velocity.x == (Count(input.right) - Count(input.left)) as real * q.speed as real / 4.0
    // a jump starts only from the ground; in the air gravity keeps pulling
    ensures input.jump && p.grounded ==> q.velocity.y == JumpVelocity
    ensures !input.jump && p.grounded ==> q.velocity.y == 0.0
    ensures !p.grounded ==> q.velocity.y == p.velocity.y + Gravity
  {
    var position := if input.reset then p.start else p.position;
    var stepped := p.speed + Count(input.speedUp) - Count(input.speedDown);
    var speed := if stepped < MinSpeed then MinSpeed else stepped;
    var vx := (Count(input.right) - Count(input.left)) as real * speed as real / 4.0;
    var vy := if !p.grounded then p.velocity.y + Gravity else 0.0;
    var vy' := if input.jump && p.grounded then JumpVelocity else vy;
    var y := if input.drop && p.onPlatform then position.y + 1 else position.y;
    p.(position := Point(position.x, y), speed := speed, velocity := Vec(vx, vy'))
  }

  /** Lines 57-60: the carried remainder plus the velocity is split into a
      whole step, rounded toward zero, and a new remainder. Nothing is lost,
      the remainder stays under one pixel and keeps the total's sign. */
  function SplitAxis(carry: real, v: real): (r: (int, real))
    ensures r.0 as real + r.1 == carry + v
    ensures -1.0 < r.1 < 1.0
    ensures carry + v >= 0.0 ==> r.1 >= 0.0
    ensures carry + v <= 0.0 ==> r.1 <= 0.0
  {
    var total := carry + v;
    var step := Trunc(total);
    (step, total - step as real)
  }

  /** The steps taken over `n` frames at a constant velocity `v` from an
      empty remainder: their sum and the remainder left. */
  function Drift(n: nat, v: real): (int, real)
  {
    if n == 0 then (0, 0.0)
    else
      var (moved, carry) := Drift(n - 1, v);
      var (step, rest) := SplitAxis(carry, v);
      (moved + step, rest)
  }

  /** The exact distance `n` frames at velocity `v` cover: n * v, summed
      frame by frame. */
  function Travel(n: nat, v: real): (d: real)
    ensures v >= 0.0 ==> d >= 0.0
    ensures v <= 0.0 ==> d <= 0.0
  {
    if n == 0 then 0.0 else Travel(n - 1, v) + v
  }

  lemma {:induction false} TravelIsProduct(n: nat, v: real)
    ensures Travel(n, v) == n as real * v
  {
    if n > 0 {
      TravelIsProduct(n - 1, v);
      assert n as real * v == (n - 1) as real * v + v;
    }
  }

  /** Fractional speeds integrate exactly: after `n` frames the actor has
      moved the whole part, rounded toward zero, of the exact distance, and
      the remainder holds the rest. */
  lemma {:induction false} DriftTruncates(n: nat, v: real)
    ensures Drift(n, v).0 == Trunc(Travel(n, v))
    ensures Drift(n, v).1 == Travel(n, v) - Trunc(Travel(n, v)) as real
  {
    if n > 0 {
      DriftTruncates(n - 1, v);
      CarryStep(Travel(n - 1, v), v);
    }
  }

  /** One frame of drift: when the distance so far has been truncated and the
      velocity does not change the total's sign, the new step is exactly what
      the truncated total gains. */
  lemma CarryStep(prev: real, v: real)
    requires (v >= 0.0 && prev >= 0.0) || (v <= 0.0 && prev <= 0.0)
    ensures var (step, rest) := SplitAxis(prev - Trunc(prev) as real, v);
      && Trunc(prev) + step == Trunc(prev + v)
      && rest == prev + v - Trunc(prev + v) as real
  {
    TruncShift(prev + v, Trunc(prev));
  }

  /** Half a pixel per frame moves the actor one pixel every two frames. */
  lemma HalfPixelTwoFrames()
    ensures Drift(2, 0.5).0 == 1
  {
    DriftTruncates(2, 0.5);
    TravelIsProduct(2, 0.5);
  }

  /** Lines 62-66: the horizontal pass, the move, and the clamp to the map. */
  function MoveX(lv: Level, pos: Point, onSlope: bool, vx: int): (r: (int, Point))
    requires Playable(lv)
    ensures r.0 == HorizontalCollisions(lv, pos, onSlope, vx)
    ensures r.1.y == pos.y && 0 <= r.1.x <= MaxX(lv)
    ensures 0 <= pos.x + r.0 <= MaxX(lv) ==> r.1.x == pos.x + r.0
  {
    var v := HorizontalCollisions(lv, pos, onSlope, vx);
    (v, Point(Clamp(pos.x + v, 0, MaxX(lv)), pos.y))
  }

  /** Lines 68-72: the vertical pass, the move, and the clamp to the map. */
  function MoveY(lv: Level, pos: Point, vy: int): (r: (int, Point))
    requires Playable(lv)
    ensures r.0 == VerticalCollisions(lv, pos, vy)
    ensures r.1.x == pos.x && 0 <= r.1.y <= MaxY(lv)
    ensures 0 <= pos.y + r.0 <= MaxY(lv) ==> r.1.y == pos.y + r.0
  {
    var v := VerticalCollisions(lv, pos, vy);
    (v, Point(pos.x, Clamp(pos.y + v, 0, MaxY(lv))))
  }

  /** Player.Update for one frame. */
  function Update(lv: Level, p: Player, input: Input): (q: Player)
    requires Playable(lv)
    ensures q.start == p.start
    ensures q.speed >= MinSpeed
    ensures 0 <= q.position.x <= MaxX(lv)
    ensures -1.0 < q.remainder.x < 1.0 && -1.0 < q.remainder.y < 1.0
    ensures q.velocity.x == q.velocity.x.Floor as real && q.velocity.y == q.velocity.y.Floor as real
    ensures q.onPlatform ==> q.grounded
    ensures q.onSlope ==> q.grounded
    ensures q.velocity.y < 0.0 ==> !q.grounded && !q.onPlatform && !q.onSlope
  {
    var c := Controls(p, input);
    var (stepX, restX) := SplitAxis(c.remainder.x, c.velocity.x);
    var (stepY, restY) := SplitAxis(c.remainder.y, c.velocity.y);
    var (vx, afterX) := MoveX(lv, c.position, c.onSlope, stepX);
    var (vy, afterY) := MoveY(lv, afterX, stepY);
    var ground := CheckForGround(lv, afterY, vy);
    var slope := CheckForSlope(lv, Point(afterY.x, ground.y), vy, ground.grounded);
    Player(p.start, Point(afterY.x, slope.y), Vec(restX, restY), Vec(vx as real, vy as real),
           c.speed, slope.grounded, ground.onPlatform, slope.onSlope)
  }

  /** After a frame the actor is inside the map, except that feet put on a
      slope in the top row may lift it up to one tile above the map. */
  lemma UpdateStaysNearMap(lv: Level, p: Player, input: Input)
    requires Playable(lv)
    ensures var q := Update(lv, p, input);
      && 0 <= q.position.x <= MaxX(lv)
      && -ActorHeight <= q.position.y <= MaxY(lv)
  {
    var c := Controls(p, input);
    var (stepX, restX) := SplitAxis(c.remainder.x, c.velocity.x);
    var (stepY, restY) := SplitAxis(c.remainder.y, c.velocity.y);
    var (vx, afterX) := MoveX(lv, c.position, c.onSlope, stepX);
    var (vy, afterY) := MoveY(lv, afterX, stepY);
    var ground := CheckForGround(lv, afterY, vy);
    var slope := CheckForSlope(lv, Point(afterY.x, ground.y), vy, ground.grounded);
    assert Update(lv, p, input).position.y == slope.y;
  }

  /** A one-row floor of solid blocks with the actor falling onto it from
      above the map: the vertical pass stops it four pixels down, the clamp
      then lifts it to the top of the map, and the ground check, which looks
      at the row under the actor's feet, finds no row there and leaves the
      actor airborne. */
  lemma FallOntoTopRow()
    ensures var lv := Level(3, [[Solid, Solid, Solid]]);
      var p := NewPlayer(Point(16, -20)).(velocity := Vec(0.0, 24.25));
      var q := Update(lv, p, Input(false, false, false, false, false, false, false));
      && q.position == Point(16, 0) && q.velocity.y == 4.0 && !q.grounded
  {
    var lv := Level(3, [[Solid, Solid, Solid]]);
    var p := NewPlayer(Point(16, -20)).(velocity := Vec(0.0, 24.25));
    var input := Input(false, false, false, false, false, false, false);
    var c := Controls(p, input);
    assert c == p.(velocity := Vec(0.0, 25.0));
    assert SplitAxis(0.0, 0.0) == (0, 0.0);
    assert SplitAxis(0.0, 25.0) == (25, 0.0);
    assert MoveX(lv, Point(16, -20), false, 0) == (0, Point(16, -20));
    FallStopsOnFloor(lv, Point(16, -20), 25);
    assert MoveY(lv, Point(16, -20), 25) == (4, Point(16, 0));
    FallFindsNoGround(lv);
  }

  /** Falling 25 pixels from 20 above a one-row map, the vertical pass scans
      only that row, under the actor's single column. */
  lemma FallWindow(lv: Level, pos: Point, vy: int)
    requires Playable(lv) && lv.Height() == 1 && lv.Width() == 3
    requires pos == Point(16, -20) && vy == 25
    ensures VerticalWindow(lv, pos, vy) == Window(0, 0, 1, 1)
  {
  }

  /** The first cell of that scan is the solid tile under the actor, so the
      pass is blocked there. */
  lemma FallReachesFloor(lv: Level, pos: Point, vy: int)
    requires Playable(lv) && lv.Height() == 1 && lv.Width() == 3 && lv.Tile(1, 0) == Solid
    requires pos == Point(16, -20) && vy == 25
    ensures Sweep(VerticalLines(lv, pos, vy), 0) == Blocked(0, 0)
  {
    var w := VerticalWindow(lv, pos, vy);
    FallWindow(lv, pos, vy);
    VerticalCell(lv, pos, vy, 0, 0);
    assert ColumnFromLeft(w, 0) == 1 && LineAt(w, vy > 0, 0) == 0;
    assert VerticalVerdict(lv, pos, vy, 1, 0) == Hit;
    FirstCellHits(VerticalLines(lv, pos, vy));
  }

  /** The fall is cut to the four pixels that bring the feet onto the floor's
      top face. */
  lemma FallStopsOnFloor(lv: Level, pos: Point, vy: int)
    requires Playable(lv) && lv.Height() == 1 && lv.Width() == 3 && lv.Tile(1, 0) == Solid
    requires pos == Point(16, -20) && vy == 25
    ensures VerticalCollisions(lv, pos, vy) == 4
  {
    FallWindow(lv, pos, vy);
    FallReachesFloor(lv, pos, vy);
    var c := VerticalContact(lv, pos, vy);
    assert c.Some?;
    assert c.value == Cell(1, 0);
  }

  /** Standing inside the only row of a one-row floor, the ground and slope
      checks look at the clamped row under the feet, the floor's own row,
      whose top is not at the feet. */
  lemma FallFindsNoGround(lv: Level)
    requires lv == Level(3, [[Solid, Solid, Solid]])
    ensures CheckForGround(lv, Point(16, 0), 4) == Footing(0, false, false)
    ensures CheckForSlope(lv, Point(16, 0), 4, false) == Stance(0, false, false)
  {
  }
}

=== FILE: scan.dfy ===
/** The nested early-exit scan shared by the horizontal and vertical passes
    of Player.cs. The outer loop walks "lines" (columns for the horizontal
    pass, rows for the vertical one) in travel order; the inner loop walks the
    cells of one line. One boolean, `bCollided`, is shared by both loops: each
    inner iteration first clears it, and the outer loop stops as soon as an
    inner loop ends with it set.

    Every cell gets one of three verdicts, after the three ways an inner
    iteration can end:
      Miss  - `continue` with the flag cleared (not solid, or no overlap);
      Graze - `continue` with the flag still set (the tile overlaps the swept
              box but lets the actor through);
      Hit   - the velocity is clamped and the inner loop breaks.
    A Graze on the last cell of a line therefore stops the whole scan without
    touching the velocity, whatever lies further on. */
module Scan {

  datatype Verdict = Miss | Graze | Hit

  /** How one inner loop ends: run off its end with the flag's final value,
      or stopped at a Hit. */
  datatype LineEnd = Through(collided: bool) | Stopped(index: nat)

  /** How the whole scan ends: no line stopped it, a line ended on a Graze,
      or a Hit at `index` of `line`. */
  datatype SweepEnd = Clear | Halted(line: nat) | Blocked(line: nat, index: nat)

  /** A line the outer loop moves past: nothing in it blocks, and it does not
      end on a Graze. */
  predicate Passable(line: seq<Verdict>)
  {
    && (forall j :: 0 <= j < |line| ==> line[j] != Hit)
    && (|line| == 0 || line[|line| - 1] != Graze)
  }

  /** A line that stops the outer loop without a Hit. */
  predicate Halts(line: seq<Verdict>)
  {
    && (forall j :: 0 <= j < |line| ==> line[j] != Hit)
    && |line| > 0 && line[|line| - 1] == Graze
  }

  /** The inner loop from cell `j` on, with `collided` the flag's value on
      arrival. It stops at the first Hit; otherwise the flag it leaves is the
      verdict of the last cell. */
  function ScanLine(line: seq<Verdict>, j: nat, collided: bool): (r: LineEnd)
    requires j <= |line|
    ensures r.Stopped? ==>
      && j <= r.index < |line| && line[r.index] == Hit
      && forall k :: j <= k < r.index ==> line[k] != Hit
    ensures r.Through? ==>
      && (forall k :: j <= k < |line| ==> line[k] != Hit)
      && r.collided == (if j < |line| then line[|line| - 1] == Graze else collided)
    decreases |line| - j
  {
    if j == |line| then Through(collided)
    else
      match line[j]
      case Miss => ScanLine(line, j + 1, false)
      case Graze => ScanLine(line, j + 1, true)
      case Hit => Stopped(j)
  }

  /** The outer loop from line `i` on. The flag is clear whenever a new inner
      loop starts: it starts clear, and the outer loop only goes on when the
      previous inner loop left it clear. */
  function Sweep(lines: seq<seq<Verdict>>, i: nat): (r: SweepEnd)
    requires i <= |lines|
    ensures r.Clear? ==> forall l :: i <= l < |lines| ==> Passable(lines[l])
    ensures r.Halted? ==>
      && i <= r.line < |lines| && Halts(lines[r.line])
      && forall l :: i <= l < r.line ==> Passable(lines[l])
    ensures r.Blocked? ==>
      && i <= r.line < |lines| && r.index < |lines[r.line]|
      && lines[r.line][r.index] == Hit
      && (forall k :: 0 <= k < r.index ==> lines[r.line][k] != Hit)
      && forall l :: i <= l < r.line ==> Passable(lines[l])
    decreases |lines| - i
  {
    if i == |lines| then Clear
    else
      match ScanLine(lines[i], 0, false)
      case Stopped(j) => Blocked(i, j)
      case Through(collided) => if collided then Halted(i) else Sweep(lines, i + 1)
  }

  /** The scan's outcome is the first line, in travel order, that is not
      passable; the three outcomes are told apart by that line alone. */
  lemma SweepFirstStop(lines: seq<seq<Verdict>>, l: nat)
    requires l < |lines| && !Passable(lines[l])
    requires forall m :: 0 <= m < l ==> Passable(lines[m])
    ensures Halts(lines[l]) ==> Sweep(lines, 0) == Halted(l)
    ensures !Halts(lines[l]) ==> Sweep(lines, 0).Blocked? && Sweep(lines, 0).line == l
  {
  }

  /** No cell scanned before the one a scan is blocked at is a Hit. */
  lemma BlockedIsFirstHit(lines: seq<seq<Verdict>>, l: nat, k: nat)
    requires Sweep(lines, 0).Blocked?
    requires l < |lines| && k < |lines[l]|
    requires l < Sweep(lines, 0).line || (l == Sweep(lines, 0).line && k < Sweep(lines, 0).index)
    ensures lines[l][k] != Hit
  {
  }

  /** A Hit in the first cell scanned blocks at once. */
  lemma FirstCellHits(lines: seq<seq<Verdict>>)
    requires |lines| > 0 && |lines[0]| > 0 && lines[0][0] == Hit
    ensures Sweep(lines, 0) == Blocked(0, 0)
  {
    assert ScanLine(lines[0], 0, false) == Stopped(0);
  }

  /** A scan stopping on a Graze ignores a Hit further on: the first-contact
      search that tracked Hits alone would have reported the second line. */
  lemma GrazeShadowsLaterHit()
    ensures Sweep([[Graze], [Hit]], 0) == Halted(0)
    ensures Sweep([[Graze, Miss], [Hit]], 0) == Blocked(1, 0)
  {
  }
}

=== FILE: surface.dfy ===
/** The two passes of Player.cs that run after the actor has moved:
    CheckForGround, which decides whether the actor rests on a solid tile or a
    platform, and CheckForSlope, which puts the actor's feet onto the surface
    of a slope it stands over. */
module Surface {
  import opened Geometry
  import opened Levels
  import opened Collisions

  /** The columns the actor covers, clamped to the map (the lower end of the
      upper clamp is the first column, as in Player.CheckForGround). */
  datatype Span = Span(low: int, high: int)

  function ColumnSpan(lv: Level, x: int): (s: Span)
    requires Playable(lv)
    ensures 0 <= s.low <= s.high < lv.Width()
  {
    var low := Clamp(x / TileSize, 0, lv.Width() - 1);
    Span(low, Clamp((x + ActorWidth - 1) / TileSize, low, lv.Width() - 1))
  }

  /** Some column from `low` to `high` of `row` holds `code`. */
  ghost predicate HasCode(lv: Level, row: int, low: int, high: int, code: int)
    requires lv.Valid() && 0 <= row < lv.Height()
  {
    exists x :: low <= x <= high && 0 <= x < lv.Width() && lv.Tile(x, row) == code
  }

  // =======================================================================
  // Ground check

  /** What the ground check leaves behind: the actor's Y and its two flags. */
  datatype Footing = Footing(y: int, grounded: bool, onPlatform: bool)

  /** The row just below the actor's feet, clamped to the map. */
  function GroundRow(lv: Level, y: int): (row: int)
    requires Playable(lv)
    ensures 0 <= row < lv.Height()
  {
    Clamp((y + ActorHeight) / TileSize, 0, lv.Height() - 1)
  }

  /** The loop over columns of CheckForGround from column `x` on. A solid
      tile or platform counts only at zero distance from the actor's feet;
      a solid one ends the loop and clears the platform flag, a platform sets
      both flags and lets the loop go on. Either way Y is set to the tile's top
      less the actor's height, which at zero distance is Y itself. */
  function GroundScan(lv: Level, row: int, x: int, high: int, f: Footing): (r: Footing)
    requires Playable(lv) && 0 <= row < lv.Height()
    requires 0 <= x && high < lv.Width()
    ensures r.y == f.y
    ensures f.y + ActorHeight != row * TileSize ==> r == f
    ensures f.y + ActorHeight == row * TileSize ==>
      && r.grounded == (f.grounded || HasCode(lv, row, x, high, Solid) || HasCode(lv, row, x, high, Platform))
      && r.onPlatform == (!HasCode(lv, row, x, high, Solid) && (f.onPlatform || HasCode(lv, row, x, high, Platform)))
    decreases high + 1 - x
  {
    if x > high then f
    else
      var code := lv.Tile(x, row);
      var top := row * TileSize;
      if code != Solid && code != Platform then GroundScan(lv, row, x + 1, high, f)
      else if Abs(top - (f.y + ActorHeight)) == 0 then
        if code == Platform && f.y + ActorHeight - 1 < top then
          GroundScan(lv, row, x + 1, high, Footing(top - ActorHeight, true, true))
        else
          Footing(top - ActorHeight, true, false)
      else GroundScan(lv, row, x + 1, high, f)
  }

  /** CheckForGround. Both flags are cleared first and stay clear while the
      actor rises. Otherwise the actor is grounded exactly when its feet are
      flush with the top of the row below and that row holds a solid tile or
      a platform under it; it stands on a platform exactly when one is there
      and no solid tile is. Y never changes. */
  function CheckForGround(lv: Level, pos: Point, vy: int): (r: Footing)
    requires Playable(lv)
    ensures r.y == pos.y
    ensures r.onPlatform ==> r.grounded
    ensures vy < 0 ==> !r.grounded && !r.onPlatform
    ensures vy >= 0 ==>
      var s := ColumnSpan(lv, pos.x);
      var row := GroundRow(lv, pos.y);
      var flush := pos.y + ActorHeight == row * TileSize;
      && r.grounded == (flush && (HasCode(lv, row, s.low, s.high, Solid) || HasCode(lv, row, s.low, s.high, Platform)))
      && r.onPlatform == (flush && HasCode(lv, row, s.low, s.high, Platform) && !HasCode(lv, row, s.low, s.high, Solid))
  {
    var cleared := Footing(pos.y, false, false);
    if vy < 0 then cleared
    else
      var s := ColumnSpan(lv, pos.x);
      GroundScan(lv, GroundRow(lv, pos.y), s.low, s.high, cleared)
  }

  // =======================================================================
  // Slope follow

  /** Where along a slope tile the actor's centre is: beyond the end with the
      smaller height (PlateauMin), beyond the other end (PlateauMax), over the
      ramp, or too far off to count. The plateaus reach half the actor's width
      past each edge. */
  datatype Zone = Off | PlateauMin | PlateauMax | Ramp

  /** The horizontal distance from a tile's left edge to the actor's centre. */
  function RelativeX(x: int, column: int): (relX: int)
    ensures 0 <= relX < TileSize <==> (x + ActorWidth / 2) / TileSize == column
  {
    x + ActorWidth / 2 - column * TileSize
  }

  function SlopeZone(flipped: bool, relX: int): (z: Zone)
    ensures z != Off <==> -ActorWidth / 2 <= relX <= TileSize + ActorWidth / 2
                           && (relX == TileSize + ActorWidth / 2 ==> flipped)
    ensures z == Ramp ==> 0 <= relX <= TileSize
    ensures z == PlateauMin ==> if flipped then relX < 0 else relX >= TileSize
    ensures z == PlateauMax ==> if flipped then relX > TileSize else relX < 0
  {
    var onMin := if flipped then -ActorWidth / 2 <= relX < 0
                 else TileSize <= relX < ActorWidth / 2 + TileSize;
    var onMax := if flipped then TileSize < relX <= TileSize + ActorWidth / 2
                 else -ActorWidth / 2 <= relX < 0;
    if onMin then PlateauMin
    else if onMax then PlateauMax
    else if 0 <= relX <= TileSize then Ramp
    else Off
  }

  /** MathHelper.Lerp(a, b, t / TileSize) cast to int: the exact quotient,
      rounded toward zero. */
  function LerpHeight(a: int, b: int, t: int): (h: int)
    ensures var exact := TileSize * a + (b - a) * t;
      && (exact >= 0 ==> 0 <= exact - TileSize * h < TileSize)
      && (exact < 0 ==> 0 <= TileSize * h - exact < TileSize)
  {
    TruncDiv(TileSize * a + (b - a) * t, TileSize)
  }

  function Min(a: int, b: int): int { if a < b then a else b }

  function Max(a: int, b: int): int { if a < b then b else a }

  /** The ramp meets its edge heights at both ends and stays between them. */
  lemma LerpBetween(a: int, b: int, t: int)
    requires 0 <= a && 0 <= b && 0 <= t <= TileSize
    ensures Min(a, b) <= LerpHeight(a, b, t) <= Max(a, b)
    ensures t == 0 ==> LerpHeight(a, b, t) == a
    ensures t == TileSize ==> LerpHeight(a, b, t) == b
  {
    var d := b - a;
    ScaleBounds(d, t);
    var n := TileSize * a + d * t;
    assert TileSize * Min(a, b) <= n <= TileSize * Max(a, b);
    assert 0 <= n;
    assert LerpHeight(a, b, t) == n / TileSize;
  }

  /** Scaling by a fraction t / TileSize of the way keeps a difference between
      zero and its full value. */
  lemma {:induction false} ScaleBounds(d: int, t: int)
    requires 0 <= t <= TileSize
    ensures d >= 0 ==> 0 <= d * t <= d * TileSize
    ensures d < 0 ==> d * TileSize <= d * t <= 0
    ensures t == 0 ==> d * t == 0
    ensures t == TileSize ==> d * t == d * TileSize
    decreases TileSize - t
  {
    if t < TileSize {
      ScaleBounds(d, t + 1);
      assert d * (t + 1) == d * t + d;
    }
  }

  /** The height, below the tile's top, at which the actor's feet are put
      over a slope tile. It is the ramp between the two edge heights, extended
      flat past both ends: each plateau keeps the height of the edge it lies
      beyond. */
  function SurfaceHeight(code: int, relX: int): (h: int)
    requires IsSlopeTile(code) && SlopeZone(IsTileXFlipped(code), relX) != Off
    ensures h == LerpHeight(GetSlopeYPositions(code).0, GetSlopeYPositions(code).1, Clamp(relX, 0, TileSize))
    ensures var (a, b) := GetSlopeYPositions(code);
      && Min(a, b) <= h <= Max(a, b)
      && (SlopeZone(IsTileXFlipped(code), relX) == PlateauMin ==> h == Min(a, b))
      && (SlopeZone(IsTileXFlipped(code), relX) == PlateauMax ==> h == Max(a, b))
  {
    var flipped := IsTileXFlipped(code);
    var (a, b) := GetSlopeYPositions(code);
    LerpBetween(a, b, Clamp(relX, 0, TileSize));
    match SlopeZone(flipped, relX)
    case PlateauMin => if flipped then a else b
    case PlateauMax => if flipped then b else a
    case Ramp => LerpHeight(a, b, relX)
  }

  /** What the slope pass leaves behind: Y and the two flags it may set. */
  datatype Stance = Stance(y: int, grounded: bool, onSlope: bool)

  /** The actor whose top is at `y` has its feet on the surface of the slope
      tile at (`column`, `row`). */
  ghost predicate OnSurface(lv: Level, x: int, column: int, row: int, y: int)
    requires lv.Valid() && 0 <= column < lv.Width() && 0 <= row < lv.Height()
  {
    var code := lv.Tile(column, row);
    && IsSlopeTile(code)
    && SlopeZone(IsTileXFlipped(code), RelativeX(x, column)) != Off
    && y + ActorHeight == row * TileSize + SurfaceHeight(code, RelativeX(x, column))
  }

  /** The tile at (`column`, `row`) is a slope whose ramp is under the
      actor's centre. */
  predicate OverRamp(lv: Level, x: int, column: int, row: int)
    requires lv.Valid() && 0 <= column < lv.Width() && 0 <= row < lv.Height()
  {
    var code := lv.Tile(column, row);
    IsSlopeTile(code) && SlopeZone(IsTileXFlipped(code), RelativeX(x, column)) == Ramp
  }

  /** The slope tile at (`column`, `row`) catches the actor whose top is at
      `y`: its centre is in one of the tile's zones and its feet are within
      the tile's height. */
  predicate Matches(lv: Level, x: int, column: int, row: int, y: int)
    requires lv.Valid() && 0 <= column < lv.Width() && 0 <= row < lv.Height()
  {
    var code := lv.Tile(column, row);
    && IsSlopeTile(code)
    && SlopeZone(IsTileXFlipped(code), RelativeX(x, column)) != Off
    && 0 <= y + ActorHeight - row * TileSize <= TileSize
  }

  /** The inner loop of CheckForSlope over the columns of one row, from
      column `x` on. A slope tile counts when the actor's centre is in one of
      its zones and its feet are within the tile's height; the feet are then
      put on the surface and the actor is grounded. A ramp match also sets the
      slope flag and ends the inner loop; a plateau match lets it go on. */
  function SlopeRowScan(lv: Level, posX: int, row: int, x: int, high: int, s: Stance): (r: Stance)
    requires Playable(lv) && 0 <= row < lv.Height()
    requires 0 <= x && high < lv.Width()
    ensures s.grounded ==> r.grounded
    ensures s.onSlope ==> r.onSlope
    ensures (s.onSlope ==> s.grounded) ==> (r.onSlope ==> r.grounded)
    ensures r.y != s.y ==> row * TileSize <= r.y + ActorHeight <= row * TileSize + TileSize
    decreases high + 1 - x
  {
    if x > high then s
    else if !Matches(lv, posX, x, row, s.y) then SlopeRowScan(lv, posX, row, x + 1, high, s)
    else
      var t := Land(lv, posX, x, row, s);
      if OverRamp(lv, posX, x, row) then t else SlopeRowScan(lv, posX, row, x + 1, high, t)
  }

  /** The stance after the slope at (`column`, `row`) catches the actor: the
      feet on its surface, grounded, and on a slope when over the ramp. */
  function Land(lv: Level, posX: int, column: int, row: int, s: Stance): (t: Stance)
    requires lv.Valid() && 0 <= column < lv.Width() && 0 <= row < lv.Height()
    requires Matches(lv, posX, column, row, s.y)
    ensures t.grounded && OnSurface(lv, posX, column, row, t.y)
    ensures t.onSlope == (s.onSlope || OverRamp(lv, posX, column, row))
    ensures row * TileSize <= t.y + ActorHeight <= row * TileSize + TileSize
  {
    var code := lv.Tile(column, row);
    var relX := RelativeX(posX, column);
    Stance(row * TileSize + SurfaceHeight(code, relX) - ActorHeight, true,
           s.onSlope || SlopeZone(IsTileXFlipped(code), relX) == Ramp)
  }

  /** Across one row the stance is unchanged, or the actor is grounded with
      its feet on a slope of that row; the slope flag is newly set only over a
      ramp of that row. */
  lemma {:induction false} SlopeRowScanSound(lv: Level, posX: int, row: int, x: int, high: int, s: Stance)
    requires Playable(lv) && 0 <= row < lv.Height()
    requires 0 <= x && high < lv.Width()
    ensures var r := SlopeRowScan(lv, posX, row, x, high, s);
      && (r == s || (r.grounded && exists c :: x <= c <= high && OnSurface(lv, posX, c, row, r.y)))
      && (r.onSlope && !s.onSlope ==> exists c :: x <= c <= high && OverRamp(lv, posX, c, row))
    decreases high + 1 - x
  {
    if x <= high {
      if !Matches(lv, posX, x, row, s.y) {
        SlopeRowScanSound(lv, posX, row, x + 1, high, s);
      } else if !OverRamp(lv, posX, x, row) {
        var t := Land(lv, posX, x, row, s);
        SlopeRowScanSound(lv, posX, row, x + 1, high, t);
        var r := SlopeRowScan(lv, posX, row, x + 1, high, t);
        if r == t {
          assert OnSurface(lv, posX, x, row, r.y);
        }
      }
    }
  }

  /** A row with no slope catching the actor leaves the stance alone. */
  lemma {:induction false} SlopeRowScanNoMatch(lv: Level, posX: int, row: int, x: int, high: int, s: Stance)
    requires Playable(lv) && 0 <= row < lv.Height()
    requires 0 <= x && high < lv.Width()
    requires forall c :: x <= c <= high ==> !Matches(lv, posX, c, row, s.y)
    ensures SlopeRowScan(lv, posX, row, x, high, s) == s
    decreases high + 1 - x
  {
    if x <= high {
      assert !Matches(lv, posX, x, row, s.y);
      SlopeRowScanNoMatch(lv, posX, row, x + 1, high, s);
    }
  }

  /** A slope of the row that catches the actor grounds it. */
  lemma {:induction false} SlopeRowScanGrounds(lv: Level, posX: int, row: int, x: int, high: int, s: Stance, c: int)
    requires Playable(lv) && 0 <= row < lv.Height()
    requires 0 <= x && high < lv.Width()
    requires x <= c <= high && Matches(lv, posX, c, row, s.y)
    ensures SlopeRowScan(lv, posX, row, x, high, s).grounded
    decreases high + 1 - x
  {
    if !Matches(lv, posX, x, row, s.y) {
      SlopeRowScanGrounds(lv, posX, row, x + 1, high, s, c);
    }
  }

  /** When the first slope of the row to catch the actor has its ramp under
      the actor's centre, the inner loop ends there: the actor is grounded,
      on a slope, with its feet on that ramp. */
  lemma {:induction false} SlopeRowScanRamp(lv: Level, posX: int, row: int, x: int, high: int, s: Stance, c: int)
    requires Playable(lv) && 0 <= row < lv.Height()
    requires 0 <= x && high < lv.Width()
    requires x <= c <= high && Matches(lv, posX, c, row, s.y) && OverRamp(lv, posX, c, row)
    requires forall c' :: x <= c' < c ==> !Matches(lv, posX, c', row, s.y)
    ensures var r := SlopeRowScan(lv, posX, row, x, high, s);
      r.grounded && r.onSlope && OnSurface(lv, posX, c, row, r.y)
    decreases high + 1 - x
  {
    if x < c {
      assert !Matches(lv, posX, x, row, s.y);
      SlopeRowScanRamp(lv, posX, row, x + 1, high, s, c);
    }
  }

  /** The outer loop of CheckForSlope over rows `row` to `far`. A ramp match
      ends only the inner loop, so the next row is still scanned, against the
      Y the previous rows left. */
  function SlopeRowsScan(lv: Level, posX: int, row: int, far: int, low: int, high: int, s: Stance): (r: Stance)
    requires Playable(lv) && 0 <= row && far < lv.Height()
    requires 0 <= low && high < lv.Width()
    ensures s.grounded ==> r.grounded
    ensures s.onSlope ==> r.onSlope
    ensures (s.onSlope ==> s.grounded) ==> (r.onSlope ==> r.grounded)
    ensures r.y != s.y ==> row * TileSize <= r.y + ActorHeight <= far * TileSize + TileSize
    decreases far + 1 - row
  {
    if row > far then s
    else SlopeRowsScan(lv, posX, row + 1, far, low, high, SlopeRowScan(lv, posX, row, low, high, s))
  }

  /** Across the rows the stance is unchanged, or the actor is grounded with
      its feet on a scanned slope; the slope flag is newly set only over a
      scanned ramp. */
  lemma {:induction false} SlopeRowsScanSound(lv: Level, posX: int, row: int, far: int, low: int, high: int, s: Stance)
    requires Playable(lv) && 0 <= row && far < lv.Height()
    requires 0 <= low && high < lv.Width()
    ensures var r := SlopeRowsScan(lv, posX, row, far, low, high, s);
      && (r == s || (r.grounded && exists c, rw :: low <= c <= high && row <= rw <= far && OnSurface(lv, posX, c, rw, r.y)))
      && (r.onSlope && !s.onSlope ==> exists c, rw :: low <= c <= high && row <= rw <= far && OverRamp(lv, posX, c, rw))
    decreases far + 1 - row
  {
    if row <= far {
      var t := SlopeRowScan(lv, posX, row, low, high, s);
      SlopeRowScanSound(lv, posX, row, low, high, s);
      SlopeRowsScanSound(lv, posX, row + 1, far, low, high, t);
      var r := SlopeRowsScan(lv, posX, row + 1, far, low, high, t);
      if r == t && t != s {
        var c :| low <= c <= high && OnSurface(lv, posX, c, row, r.y);
        assert low <= c <= high && row <= row <= far && OnSurface(lv, posX, c, row, r.y);
      } else if r != t {
        var c, rw :| low <= c <= high && row + 1 <= rw <= far && OnSurface(lv, posX, c, rw, r.y);
        assert low <= c <= high && row <= rw <= far && OnSurface(lv, posX, c, rw, r.y);
      }
      if r.onSlope && !s.onSlope {
        if t.onSlope {
          var c :| low <= c <= high && OverRamp(lv, posX, c, row);
          assert low <= c <= high && row <= row <= far && OverRamp(lv, posX, c, row);
        } else {
          var c, rw :| low <= c <= high && row + 1 <= rw <= far && OverRamp(lv, posX, c, rw);
          assert low <= c <= high && row <= rw <= far && OverRamp(lv, posX, c, rw);
        }
      }
    }
  }

  /** Rows with no slope catching the actor leave the stance alone. */
  lemma {:induction false} SlopeRowsScanNoMatch(lv: Level, posX: int, row: int, far: int, low: int, high: int, s: Stance)
    requires Playable(lv) && 0 <= row && far < lv.Height()
    requires 0 <= low && high < lv.Width()
    requires forall c, rw :: low <= c <= high && row <= rw <= far ==> !Matches(lv, posX, c, rw, s.y)
    ensures SlopeRowsScan(lv, posX, row, far, low, high, s) == s
    decreases far + 1 - row
  {
    if row <= far {
      SlopeRowScanNoMatch(lv, posX, row, low, high, s);
      SlopeRowsScanNoMatch(lv, posX, row + 1, far, low, high, s);
    }
  }

  /** A slope in any scanned row that catches the actor at its starting
      height grounds it. */
  lemma {:induction false} SlopeRowsScanGrounds(lv: Level, posX: int, row: int, far: int, low: int, high: int, s: Stance, c: int, rw: int)
    requires Playable(lv) && 0 <= row && far < lv.Height()
    requires 0 <= low && high < lv.Width()
    requires low <= c <= high && row <= rw <= far && Matches(lv, posX, c, rw, s.y)
    ensures SlopeRowsScan(lv, posX, row, far, low, high, s).grounded
    decreases far + 1 - row
  {
    if rw == row {
      SlopeRowScanGrounds(lv, posX, row, low, high, s, c);
    } else if exists c' :: low <= c' <= high && Matches(lv, posX, c', row, s.y) {
      var c' :| low <= c' <= high && Matches(lv, posX, c', row, s.y);
      SlopeRowScanGrounds(lv, posX, row, low, high, s, c');
    } else {
      SlopeRowScanNoMatch(lv, posX, row, low, high, s);
      SlopeRowsScanGrounds(lv, posX, row + 1, far, low, high, s, c, rw);
    }
  }

  /** When the first slope to catch the actor, rows top to bottom and columns
      left to right, has its ramp under the actor's centre, the actor ends
      grounded and on a slope. */
  lemma {:induction false} SlopeRowsScanRamp(lv: Level, posX: int, row: int, far: int, low: int, high: int, s: Stance, c: int, rw: int)
    requires Playable(lv) && 0 <= row && far < lv.Height()
    requires 0 <= low && high < lv.Width()
    requires low <= c <= high && row <= rw <= far
    requires Matches(lv, posX, c, rw, s.y) && OverRamp(lv, posX, c, rw)
    requires forall c', rw' :: low <= c' <= high && row <= rw' <= far && (rw' < rw || (rw' == rw && c' < c))
               ==> !Matches(lv, posX, c', rw', s.y)
    ensures var r := SlopeRowsScan(lv, posX, row, far, low, high, s);
      r.grounded && r.onSlope
    decreases far + 1 - row
  {
    if rw == row {
      SlopeRowScanRamp(lv, posX, row, low, high, s, c);
    } else {
      SlopeRowScanNoMatch(lv, posX, row, low, high, s);
      SlopeRowsScanRamp(lv, posX, row + 1, far, low, high, s, c, rw);
    }
  }

  /** The rows CheckForSlope scans: the one holding the actor's lowest pixel
      and the one below it, each clamped to the map. */
  function SlopeRows(lv: Level, y: int): (rows: (int, int))
    requires Playable(lv)
    ensures 0 <= rows.0 <= rows.1 < lv.Height()
  {
    var close := (y + ActorHeight - 1) / TileSize;
    (Clamp(close, 0, lv.Height() - 1), Clamp(close + 1, 0, lv.Height() - 1))
  }

  /** CheckForSlope. The slope flag is cleared first and stays clear while
      the actor rises. Otherwise the feet may be put on a slope in the two
      scanned rows; the slope flag implies grounded. */
  function CheckForSlope(lv: Level, pos: Point, vy: int, grounded: bool): (r: Stance)
    requires Playable(lv)
    ensures vy < 0 ==> r == Stance(pos.y, grounded, false)
    ensures grounded ==> r.grounded
    ensures r.onSlope ==> r.grounded
    ensures var (close, far) := SlopeRows(lv, pos.y);
      r.y != pos.y ==> close * TileSize <= r.y + ActorHeight <= far * TileSize + TileSize
  {
    var cleared := Stance(pos.y, grounded, false);
    if vy < 0 then cleared
    else
      var s := ColumnSpan(lv, pos.x);
      var (close, far) := SlopeRows(lv, pos.y);
      SlopeRowsScan(lv, pos.x, close, far, s.low, s.high, cleared)
  }

  /** Either nothing but the cleared slope flag changes, or the actor is
      grounded with its feet on the surface of a scanned slope tile; the slope
      flag is set only over a scanned ramp. */
  lemma CheckForSlopeSound(lv: Level, pos: Point, vy: int, grounded: bool)
    requires Playable(lv)
    ensures var span := ColumnSpan(lv, pos.x);
      var (close, far) := SlopeRows(lv, pos.y);
      var r := CheckForSlope(lv, pos, vy, grounded);
      && (r == Stance(pos.y, grounded, false)
          || (r.grounded && exists c, rw :: span.low <= c <= span.high && close <= rw <= far && OnSurface(lv, pos.x, c, rw, r.y)))
      && (r.onSlope ==> exists c, rw :: span.low <= c <= span.high && close <= rw <= far && OverRamp(lv, pos.x, c, rw))
  {
    if vy >= 0 {
      var span := ColumnSpan(lv, pos.x);
      var (close, far) := SlopeRows(lv, pos.y);
      SlopeRowsScanSound(lv, pos.x, close, far, span.low, span.high, Stance(pos.y, grounded, false));
    }
  }

  /** While not rising, the slope pass grounds the actor exactly when it
      was grounded already or a slope in the scanned rows and columns catches
      it at its current height; when none does, nothing changes. */
  lemma CheckForSlopeGrounds(lv: Level, pos: Point, vy: int, grounded: bool)
    requires Playable(lv) && vy >= 0
    ensures var span := ColumnSpan(lv, pos.x);
      var (close, far) := SlopeRows(lv, pos.y);
      var r := CheckForSlope(lv, pos, vy, grounded);
      var caught := exists c, rw :: span.low <= c <= span.high && close <= rw <= far && Matches(lv, pos.x, c, rw, pos.y);
      && (r.grounded <==> grounded || caught)
      && (!caught ==> r == Stance(pos.y, grounded, false))
  {
    var span := ColumnSpan(lv, pos.x);
    var (close, far) := SlopeRows(lv, pos.y);
    var cleared := Stance(pos.y, grounded, false);
    if exists c, rw :: span.low <= c <= span.high && close <= rw <= far && Matches(lv, pos.x, c, rw, pos.y) {
      var c, rw :| span.low <= c <= span.high && close <= rw <= far && Matches(lv, pos.x, c, rw, pos.y);
      SlopeRowsScanGrounds(lv, pos.x, close, far, span.low, span.high, cleared, c, rw);
    } else {
      SlopeRowsScanNoMatch(lv, pos.x, close, far, span.low, span.high, cleared);
    }
  }

  /** While not rising, when the first slope in scan order to catch the
      actor has its ramp under the actor's centre, the slope flag is set. */
  lemma CheckForSlopeRamp(lv: Level, pos: Point, vy: int, grounded: bool, c: int, rw: int)
    requires Playable(lv) && vy >= 0
    requires var span := ColumnSpan(lv, pos.x);
      var (close, far) := SlopeRows(lv, pos.y);
      && span.low <= c <= span.high && close <= rw <= far
      && Matches(lv, pos.x, c, rw, pos.y) && OverRamp(lv, pos.x, c, rw)
      && forall c', rw' :: span.low <= c' <= span.high && close <= rw' <= far && (rw' < rw || (rw' == rw && c' < c))
           ==> !Matches(lv, pos.x, c', rw', pos.y)
    ensures CheckForSlope(lv, pos, vy, grounded).onSlope
  {
    var span := ColumnSpan(lv, pos.x);
    var (close, far) := SlopeRows(lv, pos.y);
    SlopeRowsScanRamp(lv, pos.x, close, far, span.low, span.high, Stance(pos.y, grounded, false), c, rw);
  }

  /** Standing in the middle of a full-height slope that fills the map, the
      actor is lifted half a tile so that its feet meet the ramp, and is
      grounded on a slope. */
  lemma SlopeSnapExample()
    ensures CheckForSlope(Level(1, [[2]]), Point(0, 0), 0, false) == Stance(-8, true, true)
  {
    var lv := Level(1, [[2]]);
    MidpointOfSteepSlope(2);
    assert Matches(lv, 0, 0, 0, 0) && OverRamp(lv, 0, 0, 0);
    assert Land(lv, 0, 0, 0, Stance(0, false, false)) == Stance(-8, true, true);
  }

  /** Feet put on a slope lie within that slope tile's height. */
  lemma OnSurfaceWithinTile(lv: Level, x: int, column: int, row: int, y: int)
    requires lv.Valid() && 0 <= column < lv.Width() && 0 <= row < lv.Height()
    requires OnSurface(lv, x, column, row, y)
    ensures row * TileSize <= y + ActorHeight <= row * TileSize + TileSize
  {
  }

  /** Halfway along a full-height slope the feet are half a tile down. */
  lemma MidpointOfSteepSlope(code: int)
    requires code == 2 || code == 3
    ensures SurfaceHeight(code, TileSize / 2) == TileSize / 2
  {
  }
}

=== FILE: text.dfy ===
/** The two .NET string services the map parser relies on: `String.Split`
    on a single separator character and `int.TryParse` with the default
    integer number style (surrounding white space, an optional sign, decimal
    digits, 32-bit range, 0 on failure). */
module Text {

  const MinInt32: int := -0x8000_0000
  const MaxInt32: int := 0x7FFF_FFFF

  // ---------------------------------------------------------------------
  // String.Split(char)

  /** Joins the parts with one separator between neighbours. */
  function Join(parts: seq<string>, sep: char): string
  {
    if |parts| == 0 then ""
    else if |parts| == 1 then parts[0]
    else parts[0] + [sep] + Join(parts[1..], sep)
  }

  /** String.Split with one separator: every separator ends a token, so a
      string with k separators gives k + 1 tokens, empty ones included. */
  function Split(s: string, sep: char): (tokens: seq<string>)
    ensures |tokens| >= 1
    ensures forall i :: 0 <= i < |tokens| ==> sep !in tokens[i]
    ensures Join(tokens, sep) == s
  {
    if |s| == 0 then [""]
    else
      var rest := Split(s[1..], sep);
      if s[0] == sep then
        assert [""] + rest == [""] + rest[0..1] + rest[1..];
        [""] + rest
      else
        var tokens := [[s[0]] + rest[0]] + rest[1..];
        assert sep !in [s[0]] + rest[0];
        assert tokens[1..] == rest[1..];
        assert s == [s[0]] + s[1..];
        tokens
  }

  /** A token free of separators placed in front of the rest splits off as
      the first token. */
  lemma {:induction false} SplitPrefix(t: string, rest: string, sep: char)
    requires sep !in t
    ensures Split(t + [sep] + rest, sep) == [t] + Split(rest, sep)
    decreases |t|
  {
    if |t| == 0 {
      assert t + [sep] + rest == [sep] + rest;
      assert ([sep] + rest)[1..] == rest;
    } else {
      var s := t + [sep] + rest;
      assert s[0] == t[0] && s[1..] == t[1..] + [sep] + rest;
      SplitPrefix(t[1..], rest, sep);
      assert [t[0]] + t[1..] == t;
    }
  }

  /** A token free of separators splits into itself. */
  lemma {:induction false} SplitSingle(t: string, sep: char)
    requires sep !in t
    ensures Split(t, sep) == [t]
    decreases |t|
  {
    if |t| > 0 {
      SplitSingle(t[1..], sep);
      assert [t[0]] + t[1..] == t;
    }
  }

  /** Splitting undoes joining whenever no part contains the separator. */
  lemma {:induction false} SplitJoin(parts: seq<string>, sep: char)
    requires |parts| >= 1
    requires forall i :: 0 <= i < |parts| ==> sep !in parts[i]
    ensures Split(Join(parts, sep), sep) == parts
    decreases |parts|
  {
    if |parts| == 1 {
      SplitSingle(parts[0], sep);
    } else {
      SplitJoin(parts[1..], sep);
      SplitPrefix(parts[0], Join(parts[1..], sep), sep);
      assert [parts[0]] + parts[1..] == parts;
    }
  }

  // ---------------------------------------------------------------------
  // int.TryParse(string, out int)

  /** The characters .NET skips around a number: U+0009 to U+000D and the space. */
  predicate IsWhite(c: char)
  {
    c == ' ' || ('\t' <= c <= '\r')
  }

  predicate IsDigit(c: char)
  {
    '0' <= c <= '9'
  }

  /** The first index from `i` on that does not hold white space. */
  function WhiteFrom(s: string, i: nat): (j: nat)
    requires i <= |s|
    ensures i <= j <= |s|
    ensures forall k :: i <= k < j ==> IsWhite(s[k])
    ensures j < |s| ==> !IsWhite(s[j])
    decreases |s| - i
  {
    if i < |s| && IsWhite(s[i]) then WhiteFrom(s, i + 1) else i
  }

  /** The index just past the last character before `j` that is not white
      space. */
  function WhiteUntil(s: string, j: nat): (i: nat)
    requires j <= |s|
    ensures i <= j
    ensures forall k :: i <= k < j ==> IsWhite(s[k])
    ensures i > 0 ==> !IsWhite(s[i - 1])
  {
    if j > 0 && IsWhite(s[j - 1]) then WhiteUntil(s, j - 1) else j
  }

  /** The text without its leading white space. */
  function TrimStart(s: string): (r: string)
    ensures |r| <= |s| && r == s[|s| - |r|..]
    ensures |r| > 0 ==> !IsWhite(r[0])
    ensures forall i :: 0 <= i < |s| - |r| ==> IsWhite(s[i])
  {
    s[WhiteFrom(s, 0)..]
  }

  /** The text without its trailing white space. */
  function TrimEnd(s: string): (r: string)
    ensures |r| <= |s| && r == s[..|r|]
    ensures |r| > 0 ==> !IsWhite(r[|r| - 1])
    ensures forall i :: |r| <= i < |s| ==> IsWhite(s[i])
  {
    s[..WhiteUntil(s, |s|)]
  }

  function DigitValue(c: char): (d: nat)
    requires IsDigit(c)
    ensures d < 10
  {
    assert c as int >= '0' as int;
    c as int - '0' as int
  }

  predicate AllDigits(s: string)
  {
    forall i :: 0 <= i < |s| ==> IsDigit(s[i])
  }

  /** The decimal value of a digit string, most significant digit first. */
  function DigitsValue(s: string): (v: nat)
    requires AllDigits(s)
  {
    if |s| == 0 then 0
    else DigitsValue(s[..|s| - 1]) * 10 + DigitValue(s[|s| - 1])
  }

  /** The value int.TryParse leaves in its out parameter: the parsed number
      when the token is well formed and fits in 32 bits, 0 otherwise. */
  function TryParseInt(s: string): (r: int)
    ensures MinInt32 <= r <= MaxInt32
  {
    ParseTrimmed(TrimEnd(TrimStart(s)))
  }

  /** Parses a token already stripped of surrounding white space: an
      optional sign followed by at least one decimal digit. */
  function ParseTrimmed(t: string): (r: int)
    ensures MinInt32 <= r <= MaxInt32
  {
    var negative := |t| > 0 && t[0] == '-';
    var digits := if |t| > 0 && (t[0] == '-' || t[0] == '+') then t[1..] else t;
    if |digits| == 0 || !AllDigits(digits) then 0
    else
      var magnitude: int := DigitsValue(digits);
      var v := if negative then -magnitude else magnitude;
      if MinInt32 <= v <= MaxInt32 then v else 0
  }

  // ---------------------------------------------------------------------
  // Decimal rendering, the inverse used to state the parser's round trip

  function DigitChar(d: int): char
    requires 0 <= d < 10
  {
    ('0' as int + d) as char
  }

  function ShowNat(n: nat): (s: string)
    ensures |s| >= 1
    ensures forall i :: 0 <= i < |s| ==> IsDigit(s[i])
  {
    if n < 10 then [DigitChar(n)] else ShowNat(n / 10) + [DigitChar(n % 10)]
  }

  /** Decimal text of an integer, with a leading '-' when negative. */
  function ShowInt(n: int): string
  {
    if n < 0 then "-" + ShowNat(-n) else ShowNat(n)
  }

  lemma {:induction false} DigitsValueShowNat(n: nat)
    ensures DigitsValue(ShowNat(n)) == n
    decreases n
  {
    if n >= 10 {
      var s := ShowNat(n);
      assert s[..|s| - 1] == ShowNat(n / 10);
      DigitsValueShowNat(n / 10);
    }
  }

  /** Parsing the decimal text of a 32-bit integer gives the integer back. */
  lemma TryParseShowInt(n: int)
    requires MinInt32 <= n <= MaxInt32
    ensures TryParseInt(ShowInt(n)) == n
  {
    ShowIntTrimmed(n);
    ParseShowInt(n);
  }

  /** A decimal numeral outside the 32-bit range is rejected, leaving 0. */
  lemma TryParseOutOfRange(n: int)
    requires n < MinInt32 || MaxInt32 < n
    ensures TryParseInt(ShowInt(n)) == 0
  {
    ShowIntTrimmed(n);
    ParseShowInt(n);
  }

  /** Decimal text has no white space to trim. */
  lemma ShowIntTrimmed(n: int)
    ensures TrimEnd(TrimStart(ShowInt(n))) == ShowInt(n)
  {
    var s := ShowInt(n);
    assert !IsWhite(s[0]) && !IsWhite(s[|s| - 1]);
  }

  /** The bare decimal text of any integer reads back as that integer when
      it fits in 32 bits, and as 0 otherwise. */
  lemma ParseShowInt(n: int)
    ensures ParseTrimmed(ShowInt(n)) == if MinInt32 <= n <= MaxInt32 then n else 0
  {
    var s := ShowInt(n);
    var m := if n < 0 then -n else n;
    DigitsValueShowNat(m);
    if n < 0 {
      assert s[1..] == ShowNat(m);
    } else {
      assert s[0] != '-' && s[0] != '+';
    }
  }

  /** A character that is neither a digit, white space nor a sign anywhere
      in the text makes it malformed, leaving 0. */
  lemma TryParseRejectsStray(s: string, i: int)
    requires 0 <= i < |s|
    requires !IsDigit(s[i]) && !IsWhite(s[i]) && s[i] != '-' && s[i] != '+'
    ensures TryParseInt(s) == 0
  {
    var u := TrimStart(s);
    var a := |s| - |u|;
    assert a <= i;
    assert u[i - a] == s[i];
    var t := TrimEnd(u);
    assert i - a < |t|;
    assert t[i - a] == s[i];
    var digits := if t[0] == '-' || t[0] == '+' then t[1..] else t;
    var k := if t[0] == '-' || t[0] == '+' then i - a - 1 else i - a;
    assert 0 <= k < |digits| && !IsDigit(digits[k]);
    assert TryParseInt(s) == ParseTrimmed(t);
  }

  /** Text without a single digit is malformed, leaving 0. */
  lemma TryParseNeedsDigit(s: string)
    requires forall i :: 0 <= i < |s| ==> !IsDigit(s[i])
    ensures TryParseInt(s) == 0
  {
    var u := TrimStart(s);
    var t := TrimEnd(u);
    assert forall k :: 0 <= k < |t| ==> t[k] == s[|s| - |u| + k];
    var digits := if |t| > 0 && (t[0] == '-' || t[0] == '+') then t[1..] else t;
    assert |digits| > 0 ==> !IsDigit(digits[0]) && !AllDigits(digits);
    assert TryParseInt(s) == ParseTrimmed(t);
  }

  /** Text framed by white space parses like the bare text. */
  lemma TryParseIgnoresWhite(pre: string, s: string, post: string)
    requires forall i :: 0 <= i < |pre| ==> IsWhite(pre[i])
    requires forall i :: 0 <= i < |post| ==> IsWhite(post[i])
    requires |s| > 0 && !IsWhite(s[0]) && !IsWhite(s[|s| - 1])
    ensures TryParseInt(pre + s + post) == TryParseInt(s)
  {
    TrimStartWhite(pre, s + post);
    assert pre + s + post == pre + (s + post);
    TrimEndWhite(s, post);
    assert TrimEnd(TrimStart(pre + s + post)) == s;
    assert TrimEnd(TrimStart(s)) == s;
  }

  /** Trimming stops exactly at the first character that is not white. */
  lemma TrimStartWhite(pre: string, s: string)
    requires forall i :: 0 <= i < |pre| ==> IsWhite(pre[i])
    requires |s| > 0 && !IsWhite(s[0])
    ensures TrimStart(pre + s) == s
  {
    var t := pre + s;
    assert !IsWhite(t[|pre|]);
    assert forall i :: 0 <= i < |pre| ==> t[i] == pre[i];
    assert |t| - |TrimStart(t)| == |pre|;
  }

  /** Trimming stops exactly at the last character that is not white. */
  lemma TrimEndWhite(s: string, post: string)
    requires forall i :: 0 <= i < |post| ==> IsWhite(post[i])
    requires |s| > 0 && !IsWhite(s[|s| - 1])
    ensures TrimEnd(s + post) == s
  {
    var t := s + post;
    assert !IsWhite(t[|s| - 1]);
    assert forall i :: |s| <= i < |t| ==> t[i] == post[i - |s|];
    assert |TrimEnd(t)| == |s|;
  }
}

=== FILE: wrappers.dfy ===
/** The optional value used for "the tile a pass ran into, if any". */
module Wrappers {

  datatype Option<+T> = None | Some(value: T)
}
